=== FILE: README.md ===
# FRENZ data acquisition — a Dafny model of the recording core

The FRENZ collector records a headband's sensor streams and machine-learning
scores into one HDF5 file per session. The core is the **buffered
time-series store** (`data_storage.py`), which does the following:

- it keeps a fixed registry of datasets (`raw/eeg`, `scores/focus`,
  `power_bands/alpha`, …, `timestamps`), each with a sample width;
- it accepts samples into per-dataset buffers, with one shared timestamp per
  sample;
- it flushes the buffers to the file when the buffered span or the auto-save
  interval is reached;
- at the end of a session it reports what was saved.

Four smaller components sit around the store:

- the **collector** (`frenz_collector.py`) starts and stops sessions and turns
  each streamer snapshot into appends;
- the **event log** (`event_logger.py`) holds timestamped, categorised
  annotations;
- the **configuration** (`config.py`) has a validator and `override`;
- the **device manager** (`device_manager.py`) handles scanning, connecting,
  reconnecting with capped exponential back-off, and the headband light.

Every component is modelled as immutable datatypes plus pure transition
functions. A transition takes a state and returns the next state, together
with what the Python method returns. Locks, threads and sleeps disappear:
each lock-protected block is one step. Clock readings, generated ids and the
outcome of foreign calls (opening the file, the streamer starting) are
parameters.

| file | module | models |
|---|---|---|
| `common.dfy` | `Common` | `Option`, `Result`, Python's `a or b`, an order-preserving `Filter` |
| `registry.dfy` | `Registry` | the dataset registry of `_get_dataset_configs` |
| `storage.dfy` | `Storage` | the store state and its operations |
| `storage_props.dfy` | `StorageProps` | conservation, idempotence and round-trip lemmas about the store |
| `events.dfy` | `Events` | `EventLogger` |
| `configuration.dfy` | `Configuration` | `Config._validate_config`, `override`, `get`, `get_section` |
| `device.dfy` | `Device` | `DeviceManager` |
| `collector.dfy` | `Collector` | `FrenzCollector` |

The store's state (`Storage.Store`) has these parts:

- the settings;
- the session id and start time;
- the `is_recording` flag;
- per-dataset buffers;
- the arrival times of buffered samples;
- the file, either absent or a map from dataset to its stored contents;
- `last_save_time`;
- the auto-save stop flag.

`Storage.Wf` is the invariant every operation keeps. It requires that:

- every dataset has a buffer;
- every buffered sample has its shared timestamp;
- a recording store has an open file holding every dataset.

`initialize_session` opens the session file with mode `"w"`
(`data_storage.py:152`), which truncates it. So initialising the same
session id again starts from empty datasets rather than keeping earlier
data, and `Storage.InitializeSession` states exactly that.

## Model

| member | source | states |
|---|---|---|
| Registry.Parse | data_storage.py:97-126 | a dataset name is accepted only if it is a registered name, and it maps back to that dataset |
| Registry.ParseName | data_storage.py:97-126 | every registered dataset name is recognised as itself (registered names are distinct) |
| Registry.MaxShape | data_storage.py:200-206 | datasets are unlimited along the time axis and fixed at the registered width along the channel axis |
| Registry.Chunks | data_storage.py:200-206 | the chunk shape uses the registered chunk rows and, for vector datasets, the full width |
| Storage.CreateDatasets | data_storage.py:174-223 | every registered dataset exists afterwards; existing datasets are kept unchanged and missing ones are created empty |
| Storage.EmptyBuffers | data_storage.py:225-234 | every registered dataset gets an empty buffer |
| Storage.InitializeSession | data_storage.py:128-172 | the session id is the given one or a generated one; on success the store records with an empty file (mode "w") and nothing pending; if the file cannot be opened only the id and start time change |
| Storage.Validate | data_storage.py:250-272 | a sample is refused iff not recording, the name is unregistered, or a vector dataset gets a value whose shape is not (width,); scalar datasets skip the shape test |
| Storage.Push | data_storage.py:275-282 | the sample goes into its dataset's buffer and, unless the dataset is `timestamps`, one shared timestamp goes into the `timestamps` buffer; no other buffer changes |
| Storage.AppendData | data_storage.py:236-291 | the append succeeds iff validation passes; a refused append changes nothing; an accepted one pushes and then applies the buffer-size rule |
| Storage.Flush | data_storage.py:311-363 | no file gives false; nothing pending gives true with no change; otherwise every dataset becomes its old contents followed by its buffer, all buffers empty, and `last_save_time` advances; a dataset missing from the file leaves earlier datasets written and the buffers intact |
| Storage.CommitSucceeds | data_storage.py:334-352 | the write pass over the datasets succeeds iff every dataset with buffered data has a dataset in the file |
| Storage.CommitExtends | data_storage.py:334-352 | the write pass only ever leaves a stored dataset as it was or extends it by exactly its buffer |
| Storage.CommitWritesAll | data_storage.py:334-352 | a successful write pass extends every stored dataset by exactly its buffer |
| Storage.AutoSaveTick | data_storage.py:380-398 | a recording, non-stopped store flushes exactly when the auto-save interval has elapsed since the last save |
| Storage.StopRecording | data_storage.py:400-423 | recording and auto-save stop, then pending data is flushed: on success every dataset is extended by its buffer and the buffers are empty |
| Storage.FinalizeSession | data_storage.py:425-498 | stops a recording store first; reports each dataset's stored length and a total over non-`timestamps` datasets; closes the file; the duration is zero without a start time |
| Storage.SessionStats | data_storage.py:500-540 | not recording or no file gives the not-recording report; otherwise saved and buffered exclude `timestamps` and total = saved + buffered |
| StorageProps.AppendCounts | data_storage.py:275-282 | an accepted append adds one sample to its dataset and one to `timestamps`, leaves every other dataset unchanged, and only ever extends the file |
| StorageProps.ScalarChannelAcceptsAnyShape | data_storage.py:266-272 | a recording store accepts any convertible value into a scalar dataset |
| StorageProps.VectorChannelRejectsWrongWidth | data_storage.py:266-272 | a vector of the wrong length into a vector dataset is refused and changes nothing |
| StorageProps.CheckBufferSizeConserves | data_storage.py:293-309 | when the buffer-size rule fires, everything buffered is written and nothing stays pending; otherwise the store is untouched; either way every dataset keeps its sample count and the file only grows |
| StorageProps.FlushUsesHeadAndTail | data_storage.py:293-309 | the flush-due test uses the first and last buffered timestamps, not the minimum and maximum: timestamps 100, 700, 100 with a 5-minute buffer do not trigger a flush, although 700 − 100 spans 10 minutes |
| StorageProps.FlushConserves | data_storage.py:311-363 | with every dataset present a flush succeeds and moves samples from buffers to file without losing or duplicating any |
| StorageProps.FlushTwice | data_storage.py:319-331 | a second flush right after a successful one is a no-op that returns true |
| StorageProps.FlushSaveTime | data_storage.py:355-356 | `last_save_time` changes only on a successful flush that wrote samples, and then becomes the flush time |
| StorageProps.AutoSaveRetriesUntilWritten | data_storage.py:389-393 | with nothing pending a due auto-save changes nothing and stays due at every later tick |
| StorageProps.AutoSaveRestartsAfterWrite | data_storage.py:389-393 | a due auto-save that writes samples conserves the total and is not due again within one interval |
| StorageProps.StatsTotalSurvivesFlush | data_storage.py:508-533 | the reported total is the same before and after a flush |
| StorageProps.StopKeepsTotal | data_storage.py:400-423 | stopping a recording store keeps every sample: what is saved afterwards equals what was saved plus buffered before |
| StorageProps.FinalizeAccountsForEverything | data_storage.py:434-452 | the final summary reports every dataset with its saved-plus-buffered count and a total equal to every sample the session took |
| StorageProps.AppendRunCounts | data_storage.py:236-291 | a run of conforming samples into one dataset is accepted sample by sample and adds exactly its length |
| StorageProps.RoundTrip | data_storage.py:128-172 | a fresh session, a run of appends and finalisation report exactly the run's length for that dataset under the session id |
| StorageProps.FreshSession | data_storage.py:155-166 | a freshly initialised session records with every dataset empty |
| Events.Strip | event_logger.py:118-140 | Python's `str.strip`: the result is empty iff the input is all white space, and otherwise is the input with only white space removed around it |
| Events.NewLogger | event_logger.py:34-75 | the log uses the given session id when it is non-empty and a generated one otherwise |
| Events.LogEvent | event_logger.py:98-150 | a non-string description is a TypeError; a blank description or unknown category is a ValueError; otherwise exactly one complete event (stripped description, given category and session) is appended and the count rises by one |
| Events.GetEvents | event_logger.py:152-183 | the result is the stored events, in order, with start ≤ timestamp ≤ end (both optional, inclusive) and a matching category; an unknown category filter raises |
| Events.RecentEventsAsWritten | event_logger.py:364-375 | the code as written: a suffix of the log whose length is min(count, n) for positive counts |
| Events.RecentEventsAgree | event_logger.py:364-375 | for positive counts the corrected and the as-written versions agree |
| Events.ClearEvents | event_logger.py:296-319 | without confirmation nothing changes and the result is false; with it the log is empty |
| Events.SessionInfo | event_logger.py:326-362 | reports the id, the count, the first and last timestamps and their difference (no timestamps and 0 for an empty log), and for each of the four categories the number of events carrying it; a missing timestamp or category raises |
| Events.CountCategory | event_logger.py:345-347 | the count for a category is the length of the log filtered by that category |
| Events.CountsPartition | event_logger.py:334-347 | when every category is valid, the four per-category counts add up to the number of events |
| Events.ValidateIntegrity | event_logger.py:377-417 | valid iff no issues; the event count is the log's length; an order issue is reported iff the timestamps are not sorted |
| Events.IntegrityIff | event_logger.py:384-417 | a log is valid iff every event is complete with a valid category and the timestamps never decrease |
| Events.LogKeepsIntegrity | event_logger.py:98-150 | logging an event at a time no earlier than the logged events keeps a valid log valid |
| Events.ValidLogInfo | event_logger.py:326-362 | a valid log always has session info, a non-negative duration, and category counts that sum to the event count |
| Events.ClearedIsValid | event_logger.py:306-312 | a cleared log is valid with no events |
| Configuration.ValidIffAllHold | config.py:134-198 | the configuration is valid iff every listed rule holds: device timeouts and delays positive, reconnect attempts non-negative, storage sizes positive, compression level within 0..9, display limits, intervals and plot height positive, log size positive and backup count non-negative |
| Configuration.Validate | config.py:134-198 | a rejection or crash names the first listed rule that does not pass, which decides between ConfigurationError and TypeError; a rejection's rule fails its range test and a crash's value is not a number |
| Configuration.RunRuleHolds | config.py:137-198 | each rule's check passes iff the rule's declarative condition holds |
| Configuration.DefaultsValid | config.py:56-132 | the built-in defaults pass validation |
| Configuration.Get | config.py:246-268 | an unknown section or key gives the default; otherwise the stored value |
| Configuration.GetSection | config.py:270-290 | an unknown section raises; otherwise a copy of exactly that section |
| Configuration.OverrideAsWritten | config.py:211-244 | the code as written: an unknown section or key raises and changes nothing; with validation off, or when validation passes, the new value is kept and nothing is raised; a value that validation rejects is rolled back and the rejection raised; a value that makes validation crash stays in place and the crash is raised |
| Configuration.OverrideLeavesInvalidValue | config.py:234-244 | overriding `device.connection_timeout` with the string "30" raises but leaves the configuration changed and not valid |
| Configuration.Override | config.py:211-244 | the corrected override: it fails with the configuration unchanged iff the section or key is unknown or validation does not pass; otherwise only that key changes and a validated result is valid |
| Configuration.OverrideAgrees | config.py:234-244 | whenever validation does not crash, the corrected and as-written overrides agree |
| Configuration.GetAfterOverride | config.py:246-268 | after a successful override, `get` returns the new value |
| Configuration.OverrideKeepsValid | config.py:234-244 | a validated override of the defaults always leaves a valid configuration |
| Device.NewManager | device_manager.py:47-89 | a new manager is disconnected, holds no streamer, and starts with the light off |
| Device.GetStreamer | device_manager.py:385-391 | a streamer is returned iff the status is connected and a streamer is present |
| Device.ScanDevices | device_manager.py:116-156 | a failed scan sets the error status and returns nothing; otherwise the result lists the seen devices whose upper-cased name contains "FRENZ", in the order seen and with duplicates kept, as a subsequence of the seen names as long as the number of FRENZ names, each named "FRENZ Band" with rssi −50 |
| Device.ScanKeepsFrenzDevices | device_manager.py:137-146 | scanning "frenz-01", "Headphones", "FRENZ-02" keeps the first and last |
| Device.ScanRescan | device_manager.py:137-146 | scanning again when only the kept devices are around finds exactly the same devices |
| Device.Connect | device_manager.py:185-262 | missing arguments fall back to the environment; connection succeeds iff id and key are non-empty and data flows; success sets connected with the light setting applied; any failure leaves the error status and no streamer; with valid credentials a held streamer is disconnected first, which raises the reconnect stop flag and forgets the last device |
| Device.FailedConnectNotConnected | device_manager.py:249-262 | after a failed connect the manager is not connected and hands out no streamer |
| Device.IsConnectedLifecycle | device_manager.py:385-391 | `is_connected` holds after a connection attempt exactly when it produced a streamer, which `get_streamer` then returns; after any disconnect it is false, no streamer is handed out and `auto_reconnect` refuses |
| Device.ConnectedStreamer | device_manager.py:228-247 | after a successful connect the manager is connected and hands out the new streamer |
| Device.Disconnect | device_manager.py:264-303 | afterwards there is no streamer and no connected device, with status disconnected, or error on a fault |
| Device.ToggleLight | device_manager.py:423-450 | only the light setting changes, to the negation of the argument; a reconnect is required iff connected |
| Device.LightAppliedOnConnect | device_manager.py:436-442 | a toggled light setting is applied by the next connect |
| Device.AutoReconnect | device_manager.py:333-355 | a reconnect starts iff there is a previous device and none is already running; otherwise nothing changes |
| Device.Backoff | device_manager.py:362-383 | attempt 0 has no wait and attempt k > 0 waits min(2^k, 30) seconds, never more than 30 |
| Device.BackoffCapped | device_manager.py:368-375 | from attempt 5 on the wait is exactly 30 seconds |
| Device.BackoffMonotone | device_manager.py:368-375 | waits never decrease from one attempt to the next |
| Device.ReconnectWorker | device_manager.py:357-383 | at most `reconnect_attempts` attempts, each after the back-off wait; the stop flag, including the one its own attempt raises (as written), ends it; a reconnection leaves the manager connected; without a last device nothing happens; once it returns no worker is running |
| Device.ReconnectExhausted | device_manager.py:362-383 | the intended worker: if nothing stops it and every attempt fails, all attempts are made and the status ends as error |
| Device.ReconnectExhaustedAsWritten | device_manager.py:362-383 | the worker as written makes every attempt too when it starts without a held streamer, and keeps the last device |
| Device.OwnDisconnectStopsWorker | device_manager.py:211-212 | the worker as written, started while a streamer is held, makes at most one attempt, and after a failed one the last device is forgotten so `auto_reconnect` refuses |
| Device.WorkerAllowsRestart | device_manager.py:342-355 | once a worker has returned, a new reconnect starts exactly when a last device is known |
| Device.RetryAfterFailedReconnect | device_manager.py:333-383 | after a reconnect whose attempts all failed (no held streamer), `auto_reconnect` starts a new worker |
| Collector.NewCollector | frenz_collector.py:44-108 | a new collector has no session; the device id and product key fall back to the configured defaults |
| Collector.StartRecording | frenz_collector.py:110-195 | refused with no change while recording or when no device id is known; on success it records a fresh session with new stats, a connected device, an empty store with the collector's buffer settings, and a log whose last event is the start event; a failed start never leaves it recording |
| Collector.OpenSession | frenz_collector.py:153-189 | the session opens iff the file opens; then only the store, the log, the stats and the recording flag change, the store is empty and recording with the collector's settings and the log ends with the start event; otherwise the store is kept, the device is disconnected with no streamer and nothing records |
| Collector.StopRecording | frenz_collector.py:197-278 | without a session it reports an error and changes nothing; otherwise the summary carries the session id, its start time, the stop time as end time, the sample and error counts, the set of data types seen, the store's final summary, the event count including the end event and the duration, and the session, store, log and streamer are cleared while the device stays |
| Collector.StopAccountsForEverything | frenz_collector.py:224-231 | the stop summary's store part counts every sample the session took |
| Collector.RawAppends | frenz_collector.py:328-355 | one vector append per raw array that has a newest row; the first is `raw/eeg` with the whole newest EEG row iff the EEG array has a row; an empty or non-2-D array gives no append |
| Collector.RawAppendNames | frenz_collector.py:339-355 | only `raw/eeg`, `raw/imu` and `raw/ppg` are fed; IMU and PPG are fed exactly when they have a row, with that row less column 0 |
| Collector.RawAppendsFit | frenz_collector.py:328-355 | with a conforming headband (7 EEG columns, 4 IMU and PPG columns) every raw append fits its registered width |
| Collector.ConformingRawIsStored | frenz_collector.py:321-365 | while recording, a conforming snapshot adds one stored sample per raw append |
| Collector.ProcessRawData | frenz_collector.py:321-365 | no streamer or no store means no change; otherwise the raw appends go to the store, only EEG counts a sample (accepted or not), and the seen types and last data time update |
| Collector.PostureCode | frenz_collector.py:398-405 | posture strings map ignoring case: upright 1, slouching 2, anything else 0 |
| Collector.PostureExamples | frenz_collector.py:401-402 | "Upright" is 1, "SLOUCHING" is 2, "unknown" and "lying" are 0 |
| Collector.Convert | frenz_collector.py:386-421 | a number under a number key is stored as itself and anything else there is skipped; a posture number is itself and a posture string its posture code; a list of numbers of length 4 (quality) or 5 (bands) is stored as a vector; a string or any other sized value of that length goes to the store as an unconvertible value; anything else is skipped |
| Collector.BandNames | frenz_collector.py:413-421 | each power band goes to `power_bands/<band>` |
| Collector.ScoreKeysFeedTheirDatasets | frenz_collector.py:376-388 | each score key produces exactly one append to its own dataset when its value converts and none when it is absent |
| Collector.TableAppendsCount | frenz_collector.py:376-421 | the appends of a score snapshot (`ScoreAppends`, the score table's appends) number one per table entry whose value converts, and none for the others |
| Collector.TableSound | frenz_collector.py:376-421 | every append of a score snapshot comes from a score-table entry, under that entry's dataset name with that entry's converted value |
| Collector.SizedQualityCountsAsSeen | frenz_collector.py:390-394 | a signal-quality score of four non-numbers passes the length test, reaches the store as an unconvertible value, and its dataset is still recorded as seen |
| Collector.ScoreKeysCarryTheirValues | frenz_collector.py:386-421 | a converting score reaches its dataset with its value (a number as itself, a posture string as its code, a list as a vector), and a non-number under a number key adds nothing |
| Collector.ScoreAppendsFit | frenz_collector.py:386-421 | every score append names a registered dataset and has its registered width, unless it is an unconvertible value |
| Collector.FittingAppendsAccepted | frenz_collector.py:321-425 | while recording, appends that fit are all accepted and each adds one sample to the total |
| Collector.ProcessScores | frenz_collector.py:367-425 | no streamer or no store means no change; otherwise the score appends go to the store in table order and only the seen types change in the stats |
| Collector.LogEvent | frenz_collector.py:483-504 | false with no change when there is no event log; true iff the log accepts the event |
| Collector.NoLoggingAfterStop | frenz_collector.py:255-260 | after a session stops, logging through the collector is refused |

## Left out

- The HDF5 layer through h5py is not modelled: file open and close, resize mechanics, gzip/shuffle/fletcher32, file sizes in MB, and JSON writes of the session info, events and device metadata. The file is a map from dataset to contents. Only two failures are modelled: the file failing to open (`fileOpens`) and a dataset missing at flush time.
- Threads, locks, sleeps and `join` time-outs are not modelled. Each lock-protected block is one step, and the auto-save worker is one tick (`Storage.AutoSaveTick`).
- numpy dtype casting and `float()` are not modelled. Samples are scalars, vectors, or "unconvertible" (a value numpy cannot convert, which the store refuses).
- Timestamps are assumed numeric. A non-numeric entry in the `timestamps` buffer, which makes the buffer-size subtraction raise, is not modelled.
- A vector into a scalar dataset is accepted into the buffer, as in the code; the model does not follow it to the write, where h5py would refuse it.
- Collection-rate division, the 10-second freshness check of the collector's `is_connected`, and `get_recent_data` depend on the wall clock and are not modelled.
- The `frenztoolkit` Scanner and Streamer are foreign code and are represented by their observable results:
  - the list of seen device names, or a failed scan;
  - whether data starts flowing (`Device.Attempt`);
  - the raw arrays and score dictionary as `Collector.RawSnapshot` and a map of `Collector.Score`.
- The connection polling loop is also not modelled.
- `.env` loading, `os.getenv` parsing, logging setup and directory creation are not modelled. The configuration's default values are modelled as constants (`Configuration.Defaults`), including `log_level` as its numeric value 20.
- The collector's exception handlers are not modelled: the `errors_count` increments, `_cleanup_failed_start`, and the fallback path of `stop_recording`. The modelled operations raise nothing that those handlers catch.
- `get_event_count` is the length of the event list and appears as such in the contracts of `Events.LogEvent` and `Collector.StopRecording`.
- Events: export, save and load of the events file are not modelled. Previously stored events are a parameter of `Events.NewLogger`.
- Device.Upper: upper-cases ASCII letters only, while Python's `str.upper` also maps other scripts (for example "ﬀ" becomes "FF"), so the FRENZ name filter is stated for ASCII names.
- Collector.Lower: lower-cases ASCII letters only, as above for posture strings.
- Events.ValidateIntegrity: the "Invalid timestamp" issue for a stored event whose timestamp `float()` cannot convert is not modelled, since event timestamps are numbers or absent; a non-numeric timestamp read back from an events file is left out.
- Device.ReconnectWorker: a stop request is taken at the top of an attempt or during the wait, but the waits are not timed.
- Collector.Convert: a sized score whose elements numpy can turn into floats without being a list of numbers (a tuple of numeric strings such as `("1", "2", "3", "4")`) is stored as a vector by the code; the model treats every sized value other than a list of numbers as unconvertible, so the store refuses it. A one-element array under a number key, which `float()` accepts, is skipped in the model.
- Collector.ProcessRawData: the IMU and PPG rows are taken whole from column 1 on; numpy's behaviour on ragged or non-numeric arrays is not modelled.
- The dashboard, the diagnostic scripts and the test suite's expectation of `raw/eog`, `raw/emg`, `filtered/eog` and `filtered/emg` datasets are not modelled; the registry has no such datasets.

## Findings

| source | as written | input that shows it | evidently intended | confidence | as-written member | corrected member |
|---|---|---|---|---|---|---|
| config.py:234-244 | `override` rolls back only on `ConfigurationError`; a value that makes validation raise `TypeError` (a string compared with a number) stays in place | `override("device", "connection_timeout", "30")` on the defaults | every failed validation restores the old value, so the configuration is always left valid | not executed | Configuration.OverrideAsWritten | Configuration.Override |
| device_manager.py:211-212 | the reconnect worker's own `connect` disconnects a still-held streamer; `disconnect` sets `_stop_reconnect` and forgets the device, and joining its own thread raises inside `disconnect`, which catches it; the worker then stops at its next round | a connected manager whose data stopped, `reconnect_attempts` 3, every attempt timing out: one attempt is made instead of three, and `auto_reconnect` afterwards refuses for lack of a device | the worker keeps trying for all its attempts; only a stop requested from outside ends it | not executed | Device.OwnDisconnectStopsWorker | Device.ReconnectExhausted |
| event_logger.py:374-375 | `events[-count:]` with `count = 0` is `events[0:]`, the whole list; negative counts drop events from the front | `get_recent_events(0)` on a one-event log returns that event | no events for a count of 0 or less | not executed | Events.RecentZeroCounterexample | Events.RecentEvents |

=== FILE: collector.dfy ===
/** The recording orchestrator: it ties a device connection, a store and an
    event log into one session, and turns each snapshot the headband's
    streamer exposes (the raw sensor arrays and the latest scores) into a
    list of samples appended to the store. */
module Collector {
  import opened Common
  import opened Registry
  import Storage
  import StorageProps
  import Events
  import Device

  // ---------------------------------------------------------------------
  // Snapshots and the appends they produce

  /** One raw sensor array as the streamer holds it: absent, a 2-D array of
      rows, or anything else (a 1-D array, a non-array). */
  datatype Raw = Absent | Matrix(rows: seq<seq<real>>) | NotMatrix

  datatype RawSnapshot = RawSnapshot(eeg: Raw, imu: Raw, ppg: Raw)

  /** One score value: absent or None, a number, a string, a list of
      numbers, some other value with a length `n` (a list holding None or
      words, a tuple of strings, a dict), or something without a length. */
  datatype Score = Null | Num(x: real) | Text(s: string) | Items(xs: seq<real>) | Sized(n: nat) | Opaque

  /** A sample handed to the store: a dataset name and a value. */
  datatype Append = Append(name: string, value: Storage.Value)

  /** The newest row of a non-empty 2-D array. */
  function LatestRow(r: Raw): (row: Option<seq<real>>)
    ensures row.Some? <==> r.Matrix? && |r.rows| > 0
    ensures row.Some? ==> row.value == r.rows[|r.rows| - 1]
  {
    if r.Matrix? && |r.rows| > 0 then Some(r.rows[|r.rows| - 1]) else None
  }

  /** numpy's `row[1:]`: the row without its first column (the device's own
      timestamp), empty for an empty row. */
  function DropFirst(row: seq<real>): (r: seq<real>)
    ensures |row| > 0 ==> r == row[1..] && |r| == |row| - 1
    ensures |row| == 0 ==> r == []
  {
    if row == [] then [] else row[1..]
  }

  /** The append for one raw array: its newest row, optionally without the
      first column, or nothing when there is no row. */
  function RowAppend(name: string, raw: Raw, dropFirst: bool): (a: seq<Append>)
    ensures |a| <= 1
    ensures a != [] <==> LatestRow(raw).Some?
    ensures a != [] ==> a[0].name == name
    ensures a != [] ==> a[0].value == Storage.Vector(
      if dropFirst then DropFirst(LatestRow(raw).value) else LatestRow(raw).value)
  {
    match LatestRow(raw)
    case Some(row) => [Append(name, Storage.Vector(if dropFirst then DropFirst(row) else row))]
    case None => []
  }

  /** One when the array has a newest row, else zero. */
  function Present(raw: Raw): nat {
    if LatestRow(raw).Some? then 1 else 0
  }

  /** The appends one raw snapshot produces: the whole newest EEG row, and
      the newest IMU and PPG rows without their first column. */
  function RawAppends(snap: RawSnapshot): (r: seq<Append>)
    ensures |r| == Present(snap.eeg) + Present(snap.imu) + Present(snap.ppg)
    ensures forall k :: 0 <= k < |r| ==> r[k].value.Vector?
    ensures (|r| > 0 && r[0].name == "raw/eeg") <==> LatestRow(snap.eeg).Some?
    ensures LatestRow(snap.eeg).Some? ==> r[0] == Append("raw/eeg", Storage.Vector(LatestRow(snap.eeg).value))
  {
    assert "raw/imu"[4] != "raw/eeg"[4] && "raw/ppg"[4] != "raw/eeg"[4];
    RowAppend("raw/eeg", snap.eeg, false) + RowAppend("raw/imu", snap.imu, true) + RowAppend("raw/ppg", snap.ppg, true)
  }

  /** Only the three raw datasets are fed, and IMU and PPG are fed exactly
      when they have a newest row, with that row less the first column. */
  lemma RawAppendNames(snap: RawSnapshot)
    ensures LatestRow(snap.imu).Some? ==>
      Append("raw/imu", Storage.Vector(DropFirst(LatestRow(snap.imu).value))) in RawAppends(snap)
    ensures LatestRow(snap.ppg).Some? ==>
      Append("raw/ppg", Storage.Vector(DropFirst(LatestRow(snap.ppg).value))) in RawAppends(snap)
    ensures forall k :: 0 <= k < |RawAppends(snap)| ==>
      RawAppends(snap)[k].name in {"raw/eeg", "raw/imu", "raw/ppg"}
    ensures forall k :: 0 <= k < |RawAppends(snap)| && RawAppends(snap)[k].name == "raw/imu" ==>
      LatestRow(snap.imu).Some? && RawAppends(snap)[k].value == Storage.Vector(DropFirst(LatestRow(snap.imu).value))
    ensures forall k :: 0 <= k < |RawAppends(snap)| && RawAppends(snap)[k].name == "raw/ppg" ==>
      LatestRow(snap.ppg).Some? && RawAppends(snap)[k].value == Storage.Vector(DropFirst(LatestRow(snap.ppg).value))
  {
    assert "raw/ppg"[4] != "raw/imu"[4] && "raw/imu"[4] != "raw/eeg"[4] && "raw/ppg"[4] != "raw/eeg"[4];
  }

  /** Python's `str.lower` on ASCII letters; other characters are kept. */
  function LowerChar(c: char): (l: char)
    ensures 'A' <= c <= 'Z' ==> l as int == c as int + 32
    ensures !('A' <= c <= 'Z') ==> l == c
  {
    if 'A' <= c <= 'Z' then (c as int + 32) as char else c
  }

  function Lower(s: string): (r: string)
    ensures |r| == |s|
    ensures forall i :: 0 <= i < |s| ==> r[i] == LowerChar(s[i])
  {
    seq(|s|, i requires 0 <= i < |s| => LowerChar(s[i]))
  }

  /** The posture code for a posture string, matched without regard to case:
      upright 1, slouching 2, anything else 0. */
  function PostureCode(s: string): (code: int)
    ensures 0 <= code <= 2
    ensures code == 1 <==> Lower(s) == "upright"
    ensures code == 2 <==> Lower(s) == "slouching"
  {
    var l := Lower(s);
    if l == "upright" then 1 else if l == "slouching" then 2 else 0
  }

  lemma PostureExamples()
    ensures PostureCode("Upright") == 1 && PostureCode("SLOUCHING") == 2
    ensures PostureCode("unknown") == 0 && PostureCode("lying") == 0
  {
    var u := Lower("Upright");
    assert u[0] == 'u';
    assert u == "upright";
    var s := Lower("SLOUCHING");
    assert s[0] == 's' && s[1] == 'l' && s[2] == 'o' && s[3] == 'u' && s[4] == 'c';
    assert s[5] == 'h' && s[6] == 'i' && s[7] == 'n' && s[8] == 'g';
    assert s == "slouching";
    assert Lower("unknown")[0] == 'u' && Lower("unknown")[1] == 'n';
    assert Lower("lying")[0] == 'l';
  }

  /** How a score key is read. */
  datatype Kind =
    /** a number; strings are skipped */
    | Number
    /** a number, or a posture string */
    | Posture
    /** a sequence of exactly `n` values */
    | Fixed(n: nat)

  datatype Entry = Entry(key: string, channel: Channel, kind: Kind)

  /** The score keys in the order they are read, with their datasets: the
      seven scores, then the five power bands. */
  const ScoreTable: seq<Entry> := [
    Entry("focus_score", ScoresFocus, Number),
    Entry("poas", ScoresPoas, Number),
    Entry("posture", ScoresPosture, Posture),
    Entry("sleep_stage", ScoresSleepStage, Number),
    Entry("sqc_scores", ScoresSignalQuality, Fixed(4)),
    Entry("hr", ScoresHr, Number),
    Entry("spo2", ScoresSpo2, Number),
    Entry("alpha", BandAlpha, Fixed(5)),
    Entry("beta", BandBeta, Fixed(5)),
    Entry("gamma", BandGamma, Fixed(5)),
    Entry("theta", BandTheta, Fixed(5)),
    Entry("delta", BandDelta, Fixed(5))
  ]

  /** A power band's dataset is named after the band. */
  lemma BandNames()
    ensures forall k :: 7 <= k < |ScoreTable| ==>
      Name(ScoreTable[k].channel) == "power_bands/" + ScoreTable[k].key
  {
  }

  /** The value one score turns into, if any.  A string or another sized
      value of the right length passes the length test but cannot be
      converted to floats, which the store rejects. */
  function Convert(kind: Kind, v: Score): (r: Option<Storage.Value>)
    ensures v.Null? ==> r.None?
    ensures r.Some? && r.value.Vector? ==> kind.Fixed? && |r.value.xs| == kind.n
    ensures r.Some? && r.value.Scalar? ==> !kind.Fixed?
    ensures kind.Number? ==> (r.Some? <==> v.Num?) && (v.Num? ==> r == Some(Storage.Scalar(v.x)))
    ensures kind.Posture? ==> (r.Some? <==> v.Num? || v.Text?)
    ensures kind.Posture? && v.Num? ==> r == Some(Storage.Scalar(v.x))
    ensures kind.Posture? && v.Text? ==> r == Some(Storage.Scalar(PostureCode(v.s) as real))
    ensures kind.Fixed? ==> (r.Some? <==> (v.Items? && |v.xs| == kind.n) || (v.Text? && |v.s| == kind.n) || (v.Sized? && v.n == kind.n))
    ensures kind.Fixed? && v.Items? && |v.xs| == kind.n ==> r == Some(Storage.Vector(v.xs))
    ensures kind.Fixed? && ((v.Text? && |v.s| == kind.n) || (v.Sized? && v.n == kind.n)) ==> r == Some(Storage.Unconvertible)
  {
    match kind
    case Fixed(n) =>
      if v.Items? && |v.xs| == n then Some(Storage.Vector(v.xs))
      else if v.Text? && |v.s| == n then Some(Storage.Unconvertible)
      else if v.Sized? && v.n == n then Some(Storage.Unconvertible)
      else None
    case Posture =>
      if v.Num? then Some(Storage.Scalar(v.x))
      else if v.Text? then Some(Storage.Scalar(PostureCode(v.s) as real))
      else None
    case Number =>
      if v.Num? then Some(Storage.Scalar(v.x)) else None
  }

  function Lookup(scores: map<string, Score>, key: string): Score {
    if key in scores then scores[key] else Null
  }

  /** An entry whose score value converts. */
  predicate Converts(scores: map<string, Score>, e: Entry) {
    Convert(e.kind, Lookup(scores, e.key)).Some?
  }

  /** The append an entry produces comes from that entry's score. */
  predicate FromEntry(scores: map<string, Score>, e: Entry, a: Append) {
    a.name == Name(e.channel) && Convert(e.kind, Lookup(scores, e.key)) == Some(a.value)
  }

  function TableAppends(scores: map<string, Score>, table: seq<Entry>): (r: seq<Append>)
    ensures |r| <= |table|
  {
    if table == [] then []
    else
      EntryAppend(scores, table[0]) + TableAppends(scores, table[1..])
  }

  /** The append one table entry contributes: its converted value under the
      entry's dataset name, or nothing when the value does not convert. */
  function EntryAppend(scores: map<string, Score>, e: Entry): (r: seq<Append>)
    ensures |r| == if Convert(e.kind, Lookup(scores, e.key)).Some? then 1 else 0
    ensures r != [] ==> r[0] == Append(Name(e.channel), Convert(e.kind, Lookup(scores, e.key)).value)
  {
    match Convert(e.kind, Lookup(scores, e.key))
    case Some(v) => [Append(Name(e.channel), v)]
    case None => []
  }

  /** The appends one score snapshot produces, in table order. */
  function ScoreAppends(scores: map<string, Score>): (r: seq<Append>)
    ensures |r| <= |ScoreTable|
  {
    TableAppends(scores, ScoreTable)
  }

  /** A table produces one append per entry whose score converts, and none
      for the others. */
  lemma {:induction false} TableAppendsCount(scores: map<string, Score>, table: seq<Entry>)
    ensures |TableAppends(scores, table)| == CountWhere(table, e => Converts(scores, e))
  {
    if table != [] {
      TableAppendsCount(scores, table[1..]);
    }
  }

  /** Nothing else reaches the store: every append of a table comes from
      one of its entries, carrying that entry's converted score under that
      entry's dataset name. */
  lemma {:induction false} TableSound(scores: map<string, Score>, table: seq<Entry>)
    ensures forall a :: a in TableAppends(scores, table) ==> exists e :: e in table && FromEntry(scores, e, a)
  {
    if table != [] {
      TableSound(scores, table[1..]);
      var head, tail := EntryAppend(scores, table[0]), TableAppends(scores, table[1..]);
      assert TableAppends(scores, table) == head + tail;
      forall a | a in TableAppends(scores, table)
        ensures exists e :: e in table && FromEntry(scores, e, a)
      {
        if a in head {
          assert FromEntry(scores, table[0], a);
        } else {
          assert a in tail;
          var e :| e in table[1..] && FromEntry(scores, e, a);
          assert e in table;
        }
      }
    }
  }

  /** Number of appends to dataset `name`. */
  function CountFor(appends: seq<Append>, name: string): (n: nat)
    ensures n <= |appends|
  {
    if appends == [] then 0
    else (if appends[0].name == name then 1 else 0) + CountFor(appends[1..], name)
  }

  /** No two entries of a table share a dataset. */
  predicate Distinct(table: seq<Entry>) {
    forall i, j :: 0 <= i < j < |table| ==> table[i].channel != table[j].channel
  }

  lemma {:induction false} NameInjective(c: Channel, d: Channel)
    requires Name(c) == Name(d)
    ensures c == d
  {
    ParseName(c);
    ParseName(d);
  }

  lemma {:induction false} TableCountAbsent(scores: map<string, Score>, table: seq<Entry>, c: Channel)
    requires forall i :: 0 <= i < |table| ==> table[i].channel != c
    ensures CountFor(TableAppends(scores, table), Name(c)) == 0
  {
    if table != [] {
      TableCountAbsent(scores, table[1..], c);
      var e := table[0];
      if Name(e.channel) == Name(c) {
        NameInjective(e.channel, c);
      }
      var head := EntryAppend(scores, e);
      CountForConcat(head, TableAppends(scores, table[1..]), Name(c));
    }
  }

  lemma {:induction false} CountForConcat(a: seq<Append>, b: seq<Append>, name: string)
    ensures CountFor(a + b, name) == CountFor(a, name) + CountFor(b, name)
  {
    if a == [] {
      assert a + b == b;
    } else {
      assert (a + b)[1..] == a[1..] + b;
      CountForConcat(a[1..], b, name);
    }
  }

  lemma {:induction false} TableCount(scores: map<string, Score>, table: seq<Entry>, k: nat)
    requires Distinct(table) && k < |table|
    ensures CountFor(TableAppends(scores, table), Name(table[k].channel))
      == if Convert(table[k].kind, Lookup(scores, table[k].key)).Some? then 1 else 0
  {
    var e := table[0];
    var head := EntryAppend(scores, e);
    CountForConcat(head, TableAppends(scores, table[1..]), Name(table[k].channel));
    if k == 0 {
      TableCountAbsent(scores, table[1..], e.channel);
    } else {
      TableCount(scores, table[1..], k - 1);
      if Name(e.channel) == Name(table[k].channel) {
        NameInjective(e.channel, table[k].channel);
      }
    }
  }

  /** Each score key feeds its own dataset: the snapshot produces exactly one
      append to that dataset when the key's value converts, and none when it
      is absent or of the wrong kind. */
  lemma ScoreKeysFeedTheirDatasets(scores: map<string, Score>, k: nat)
    requires k < |ScoreTable|
    ensures CountFor(ScoreAppends(scores), Name(ScoreTable[k].channel))
      == if Convert(ScoreTable[k].kind, Lookup(scores, ScoreTable[k].key)).Some? then 1 else 0
    ensures ScoreTable[k].key !in scores ==> CountFor(ScoreAppends(scores), Name(ScoreTable[k].channel)) == 0
  {
    ScoreTableDistinct();
    TableCount(scores, ScoreTable, k);
  }

  /** A score that converts reaches its dataset with the converted value:
      a number as itself, a posture string as its code, a list of the
      right length as a vector; and any score other than a number under a
      number key (a string, say) is skipped. */
  lemma ScoreKeysCarryTheirValues(scores: map<string, Score>, k: nat)
    requires k < |ScoreTable|
    ensures var e := ScoreTable[k]; var v := Lookup(scores, e.key);
      && (e.kind.Number? && v.Num? ==> Append(Name(e.channel), Storage.Scalar(v.x)) in ScoreAppends(scores))
      && (e.kind.Posture? && v.Text? ==>
            Append(Name(e.channel), Storage.Scalar(PostureCode(v.s) as real)) in ScoreAppends(scores))
      && (e.kind.Fixed? && v.Items? && |v.xs| == e.kind.n ==>
            Append(Name(e.channel), Storage.Vector(v.xs)) in ScoreAppends(scores))
      && (e.kind.Number? && !v.Num? ==> CountFor(ScoreAppends(scores), Name(e.channel)) == 0)
  {
    TableCarries(scores, ScoreTable, k);
    ScoreKeysFeedTheirDatasets(scores, k);
  }

  lemma {:induction false} TableCarries(scores: map<string, Score>, table: seq<Entry>, k: nat)
    requires k < |table|
    ensures var c := Convert(table[k].kind, Lookup(scores, table[k].key));
      c.Some? ==> Append(Name(table[k].channel), c.value) in TableAppends(scores, table)
  {
    if k == 0 {
      var head := EntryAppend(scores, table[0]);
      if head != [] {
        assert head[0] in head + TableAppends(scores, table[1..]);
      }
    } else {
      TableCarries(scores, table[1..], k - 1);
    }
  }

  /** The position in the score table of the key that feeds a dataset; -1
      for datasets no score feeds. */
  function ScoreSlot(c: Channel): int {
    match c
    case ScoresFocus => 0
    case ScoresPoas => 1
    case ScoresPosture => 2
    case ScoresSleepStage => 3
    case ScoresSignalQuality => 4
    case ScoresHr => 5
    case ScoresSpo2 => 6
    case BandAlpha => 7
    case BandBeta => 8
    case BandGamma => 9
    case BandTheta => 10
    case BandDelta => 11
    case _ => -1
  }

  /** The table feeds twelve different datasets. */
  lemma ScoreTableDistinct()
    ensures Distinct(ScoreTable)
  {
    assert forall i :: 0 <= i < |ScoreTable| ==> ScoreSlot(ScoreTable[i].channel) == i;
  }

  /** An append the store will take once it is recording: the name is
      registered and the value converts and has the registered width. */
  predicate Fits(a: Append) {
    Parse(a.name).Some? && !a.value.Unconvertible? && Storage.ShapeOk(Parse(a.name).value, a.value)
  }

  /** The rows a conforming headband produces: 7 EEG channels, and IMU and
      PPG rows of 4 columns (the first one a timestamp). */
  predicate Conforming(snap: RawSnapshot) {
    (LatestRow(snap.eeg).Some? ==> |LatestRow(snap.eeg).value| == 7)
    && (LatestRow(snap.imu).Some? ==> |LatestRow(snap.imu).value| == 4)
    && (LatestRow(snap.ppg).Some? ==> |LatestRow(snap.ppg).value| == 4)
  }

  /** Every append of a conforming raw snapshot fits the registry. */
  lemma RawAppendsFit(snap: RawSnapshot)
    requires Conforming(snap)
    ensures forall k :: 0 <= k < |RawAppends(snap)| ==> Fits(RawAppends(snap)[k])
    ensures forall k :: 0 <= k < |RawAppends(snap)| ==> Parse(RawAppends(snap)[k].name).value != Timestamps
  {
    RawAppendNames(snap);
    ParseName(RawEeg);
    ParseName(RawImu);
    ParseName(RawPpg);
  }

  /** Every score append names a registered dataset, and every one that
      converts has that dataset's width. */
  lemma {:induction false} ScoreAppendsFit(scores: map<string, Score>)
    ensures forall k :: 0 <= k < |ScoreAppends(scores)| ==>
      var a := ScoreAppends(scores)[k];
      a.value.Unconvertible? || Fits(a)
  {
    TableFits(scores, ScoreTable);
  }

  /** The table's kinds agree with the registry's widths. */
  predicate KindMatches(e: Entry) {
    match e.kind
    case Fixed(n) => Width(e.channel) == n
    case _ => Width(e.channel) == 0
  }

  lemma {:induction false} TableFits(scores: map<string, Score>, table: seq<Entry>)
    requires forall i :: 0 <= i < |table| ==> KindMatches(table[i])
    ensures forall k :: 0 <= k < |TableAppends(scores, table)| ==>
      var a := TableAppends(scores, table)[k];
      a.value.Unconvertible? || Fits(a)
  {
    if table != [] {
      TableFits(scores, table[1..]);
      ParseName(table[0].channel);
    }
  }

  // ---------------------------------------------------------------------
  // Feeding the store

  /** Hands each append to the store in turn; counts the accepted ones. */
  function AppendAll(s: Storage.Store, appends: seq<Append>, now: real): (r: (Storage.Store, nat))
    requires Storage.Wf(s)
    decreases |appends|
    ensures Storage.Wf(r.0)
    ensures r.1 <= |appends|
    ensures r.0.sessionId == s.sessionId && r.0.startTime == s.startTime
    ensures r.0.recording == s.recording
  {
    if appends == [] then (s, 0)
    else
      var (s1, ok) := Storage.AppendData(s, appends[0].name, appends[0].value, Some(now), now);
      var (s2, n) := AppendAll(s1, appends[1..], now);
      (s2, n + (if ok then 1 else 0))
  }

  /** While the store is recording, appends that fit are all accepted, and
      each one adds exactly one sample to the session's total. */
  lemma {:induction false} FittingAppendsAccepted(s: Storage.Store, appends: seq<Append>, now: real)
    requires Storage.Wf(s) && s.recording
    requires forall k :: 0 <= k < |appends| ==> Fits(appends[k]) && Parse(appends[k].name).value != Timestamps
    ensures AppendAll(s, appends, now).1 == |appends|
    ensures StorageProps.Total(AppendAll(s, appends, now).0) == StorageProps.Total(s) + |appends|
    decreases |appends|
  {
    if appends != [] {
      var a := appends[0];
      var (s1, ok) := Storage.AppendData(s, a.name, a.value, Some(now), now);
      StorageProps.AppendCounts(s, a.name, a.value, Some(now), now);
      FittingAppendsAccepted(s1, appends[1..], now);
    }
  }

  /** The registered datasets a list of appends names. */
  function ChannelsOf(appends: seq<Append>): (r: set<Channel>)
    ensures forall c :: c in r <==> exists k :: 0 <= k < |appends| && Parse(appends[k].name) == Some(c)
  {
    if appends == [] then {}
    else
      (match Parse(appends[0].name)
       case Some(c) => {c}
       case None => {})
      + ChannelsOf(appends[1..])
  }

  // ---------------------------------------------------------------------
  // The collector

  datatype Stats = Stats(samplesCollected: nat, errors: nat, lastDataTime: Option<real>, typesSeen: set<Channel>)

  const FreshStats := Stats(0, 0, None, {})

  datatype FrenzCollector = FrenzCollector(
    deviceId: Option<string>,
    productKey: Option<string>,
    bufferMinutes: int,
    autoSaveInterval: int,
    device: Device.Manager,
    storage: Option<Storage.Store>,
    events: Option<Events.EventLogger>,
    streamer: Option<Device.Streamer>,
    recording: bool,
    sessionId: Option<string>,
    startTime: Option<real>,
    stats: Stats)

  /** The collector's invariant: a store it holds is well formed, and while
      recording it holds a store and an event log. */
  predicate Wf(c: FrenzCollector) {
    (c.storage.Some? ==> Storage.Wf(c.storage.value))
    && (c.recording ==> c.storage.Some? && c.events.Some?)
  }

  /** A collector for the given device (falling back to the configured
      defaults), with no session. */
  function NewCollector(deviceId: Option<string>, productKey: Option<string>,
                        defaultId: Option<string>, defaultKey: Option<string>,
                        bufferMinutes: int, autoSaveInterval: int, device: Device.Manager): (c: FrenzCollector)
    ensures Wf(c) && !c.recording && c.storage.None? && c.events.None?
    ensures c.deviceId == OrElse(deviceId, defaultId) && c.productKey == OrElse(productKey, defaultKey)
  {
    FrenzCollector(OrElse(deviceId, defaultId), OrElse(productKey, defaultKey), bufferMinutes, autoSaveInterval, device,
                   None, None, None, false, None, None, FreshStats)
  }

  /** The store a session opens takes the collector's buffer size and
      auto-save interval and the store's own compression defaults. */
  function StoreSettings(c: FrenzCollector): Storage.Settings {
    Storage.DefaultSettings.(bufferMinutes := c.bufferMinutes, autoSaveInterval := c.autoSaveInterval)
  }

  /** What the outside world does during `start_recording`. */
  datatype StartWorld = StartWorld(
    generatedId: string,
    envKey: Option<string>,
    attempt: Device.Attempt,
    fileOpens: bool,
    storedEvents: seq<Events.Event>,
    iso: string)

  const StartDescription := "Recording session started"
  const EndDescription := "Recording session ended"

  /** Starts a session.  Refused with nothing changed while a session is
      recording or when no device id is known.  Otherwise it uses the live
      connection or connects, and on a connection opens the session. */
  function StartRecording(c: FrenzCollector, deviceId: Option<string>, sessionId: Option<string>,
                          now: real, w: StartWorld): (r: (FrenzCollector, bool))
    requires Wf(c)
    ensures Wf(r.0)
    ensures c.recording ==> r == (c, false)
    ensures !Truthy(OrElse(deviceId, c.deviceId)) ==> r == (c, false)
    ensures r.1 ==>
      && r.0.recording && r.0.stats == FreshStats
      && r.0.sessionId == Some(sessionId.GetOr(w.generatedId)) && r.0.startTime == Some(now)
      && r.0.streamer.Some? && Device.IsConnected(r.0.device)
    ensures r.1 ==> SessionOpened(r.0, c.bufferMinutes, c.autoSaveInterval, w.storedEvents)
    ensures !r.1 && !c.recording ==> !r.0.recording
  {
    if c.recording then (c, false)
    else
      var target := OrElse(deviceId, c.deviceId);
      if !Truthy(target) then (c, false)
      else
        var sid := sessionId.GetOr(w.generatedId);
        var (dev, streamer) :=
          if Device.IsConnected(c.device) then (c.device, Device.GetStreamer(c.device))
          else Device.Connect(c.device, target, c.productKey, None, w.envKey, w.attempt, now);
        var c1 := c.(sessionId := Some(sid), startTime := Some(now), device := dev, streamer := streamer);
        if streamer.None? then (c1, false)
        else OpenSession(c1, now, w)
  }

  /** A freshly opened session: an empty recording store under the
      session's id with the given buffer size and auto-save interval and
      the gzip level 4 compression, and an event log holding the stored
      events followed by the start event. */
  predicate SessionOpened(c: FrenzCollector, bufferMinutes: int, autoSaveInterval: int, stored: seq<Events.Event>) {
    && c.storage.Some? && c.events.Some?
    && var st := c.storage.value;
    && st.recording && st.sessionId == c.sessionId && Storage.Pending(st) == 0
    && st.settings.bufferMinutes == bufferMinutes && st.settings.autoSaveInterval == autoSaveInterval
    && st.settings.compression == "gzip" && st.settings.compressionLevel == 4
    && st.file.Some? && (forall ch :: ch in st.file.value && st.file.value[ch] == [])
    && var lg := c.events.value;
    && |lg.events| == |stored| + 1 && lg.events[..|stored|] == stored
    && lg.events[|stored|].description == Some(StartDescription)
  }

  /** The second half of `start_recording`, once a streamer is at hand:
      opens a new store, and on success opens the event log, resets the
      statistics, starts recording and logs a start event.  When the file
      cannot be opened the store is kept and the device disconnected. */
  function OpenSession(c: FrenzCollector, now: real, w: StartWorld): (r: (FrenzCollector, bool))
    requires Wf(c) && !c.recording && c.sessionId.Some?
    ensures Wf(r.0)
    ensures r.1 ==> r.0 == c.(storage := r.0.storage, events := r.0.events, stats := FreshStats, recording := true)
    ensures r.1 ==> SessionOpened(r.0, c.bufferMinutes, c.autoSaveInterval, w.storedEvents)
    ensures r.1 <==> w.fileOpens
    ensures !r.1 ==> !r.0.recording && r.0.storage.Some? && r.0.streamer == c.streamer
    ensures !r.1 ==> !Device.IsConnected(r.0.device) && r.0.device.streamer.None? && r.0.device.connected.None?
  {
    var (st, ok) := Storage.InitializeSession(Storage.Initial(StoreSettings(c)), c.sessionId, w.generatedId, now, w.fileOpens);
    if !ok then (c.(storage := Some(st), device := Device.Disconnect(c.device, false).0), false)
    else
      var lg := Events.NewLogger(c.sessionId, w.generatedId, w.storedEvents);
      StartEventLogged(lg, now, w.iso);
      var lg' := Events.LogEvent(lg, Events.Text(StartDescription), "other", now, w.iso).value.0;
      (c.(storage := Some(st), events := Some(lg'), stats := FreshStats, recording := true), true)
  }

  /** The start and end events are always accepted. */
  lemma StartEventLogged(lg: Events.EventLogger, now: real, iso: string)
    ensures Events.LogEvent(lg, Events.Text(StartDescription), "other", now, iso).Ok?
    ensures Events.LogEvent(lg, Events.Text(EndDescription), "other", now, iso).Ok?
    ensures Events.LogEvent(lg, Events.Text(StartDescription), "other", now, iso).value.1.description
      == Some(StartDescription)
  {
    StripPlain(StartDescription);
    StripPlain(EndDescription);
  }

  /** Stripping a string that neither starts nor ends with white space
      leaves it unchanged. */
  lemma StripPlain(s: string)
    requires |s| > 0 && !Events.IsSpace(s[0]) && !Events.IsSpace(s[|s| - 1])
    ensures Events.Strip(s) == s && !Events.AllSpace(s)
  {
    assert Events.LeadingSpaces(s) == 0;
    assert s[0..] == s;
    assert Events.TrailingSpaces(s) == 0;
    assert s[0..|s|] == s;
    assert !Events.IsSpace(s[0]);
  }

  /** What `stop_recording` returns. */
  datatype StopResult =
    | NoSession
    | Finished(
        sessionId: Option<string>,
        startTime: Option<real>,
        endTime: real,
        durationSeconds: real,
        samplesCollected: nat,
        errors: nat,
        typesCollected: set<Channel>,
        storage: Option<Storage.Summary>,
        eventCount: nat)

  /** Ends a session: logs an end event, finalises the store, and forgets the
      session, the store, the event log and the streamer.  The device stays
      connected for the next session.  Without a session it reports an
      error and changes nothing. */
  function StopRecording(c: FrenzCollector, now: real, iso: string): (r: (FrenzCollector, StopResult))
    requires Wf(c)
    ensures Wf(r.0)
    ensures !c.recording ==> r == (c, NoSession)
    ensures c.recording ==>
      && r.1.Finished?
      && !r.0.recording && r.0.sessionId.None? && r.0.startTime.None?
      && r.0.storage.None? && r.0.events.None? && r.0.streamer.None?
      && r.0.device == c.device && r.0.stats == c.stats
    ensures c.recording ==> var sum := r.1;
      && sum.sessionId == c.sessionId
      && sum.eventCount == |c.events.value.events| + 1
      && sum.samplesCollected == c.stats.samplesCollected
      && sum.storage == Some(Storage.FinalizeSession(c.storage.value, now).1)
      && sum.durationSeconds == Storage.Elapsed(c.startTime, now)
      && sum.startTime == c.startTime && sum.endTime == now
      && sum.errors == c.stats.errors
      && sum.typesCollected == c.stats.typesSeen
  {
    if !c.recording then (c, NoSession)
    else
      var lg := c.events.value;
      StartEventLogged(lg, now, iso);
      var lg' := Events.LogEvent(lg, Events.Text(EndDescription), "other", now, iso).value.0;
      var summary := Storage.FinalizeSession(c.storage.value, now).1;
      var result := Finished(c.sessionId, c.startTime, now, Storage.Elapsed(c.startTime, now),
                             c.stats.samplesCollected, c.stats.errors, c.stats.typesSeen,
                             Some(summary), |lg'.events|);
      (c.(recording := false, sessionId := None, startTime := None, streamer := None,
          storage := None, events := None), result)
  }

  /** The store's part of the summary accounts for every sample the session
      took, saved or still buffered when it stopped. */
  lemma StopAccountsForEverything(c: FrenzCollector, now: real, iso: string)
    requires Wf(c) && c.recording && c.storage.value.recording
    ensures var sum := StopRecording(c, now, iso).1;
      && sum.storage.value.totalSamples == StorageProps.Total(c.storage.value)
      && forall ch :: ch in sum.storage.value.datasets
           && sum.storage.value.datasets[ch] == Storage.ChannelTotal(c.storage.value, ch)
  {
    StorageProps.FinalizeAccountsForEverything(c.storage.value, now);
  }

  /** Processes one raw snapshot.  Without a streamer or a store nothing
      happens.  A present EEG array counts one sample whether or not the
      store takes it. */
  function ProcessRawData(c: FrenzCollector, snap: RawSnapshot, now: real): (r: FrenzCollector)
    requires Wf(c)
    ensures Wf(r)
    ensures c.streamer.None? || c.storage.None? ==> r == c
    ensures c.streamer.Some? && c.storage.Some? ==>
      && r.storage == Some(AppendAll(c.storage.value, RawAppends(snap), now).0)
      && r.stats.samplesCollected == c.stats.samplesCollected + (if LatestRow(snap.eeg).Some? then 1 else 0)
      && r.stats.typesSeen == c.stats.typesSeen + ChannelsOf(RawAppends(snap))
      && r.stats.lastDataTime == Some(now)
      && r.stats.errors == c.stats.errors
      && r == c.(storage := r.storage, stats := r.stats)
  {
    if c.streamer.None? || c.storage.None? then c
    else
      var appends := RawAppends(snap);
      var st := AppendAll(c.storage.value, appends, now).0;
      var samples := c.stats.samplesCollected + (if LatestRow(snap.eeg).Some? then 1 else 0);
      var stats := c.stats.(samplesCollected := samples, lastDataTime := Some(now),
                            typesSeen := c.stats.typesSeen + ChannelsOf(appends));
      c.(storage := Some(st), stats := stats)
  }

  /** Processes one score snapshot.  Without a streamer or a store nothing
      happens; the sample count is untouched. */
  function ProcessScores(c: FrenzCollector, scores: map<string, Score>, now: real): (r: FrenzCollector)
    requires Wf(c)
    ensures Wf(r)
    ensures c.streamer.None? || c.storage.None? ==> r == c
    ensures c.streamer.Some? && c.storage.Some? ==>
      && r.storage == Some(AppendAll(c.storage.value, ScoreAppends(scores), now).0)
      && r.stats == c.stats.(typesSeen := c.stats.typesSeen + ChannelsOf(ScoreAppends(scores)))
      && r == c.(storage := r.storage, stats := r.stats)
  {
    if c.streamer.None? || c.storage.None? then c
    else
      var appends := ScoreAppends(scores);
      var st := AppendAll(c.storage.value, appends, now).0;
      c.(storage := Some(st), stats := c.stats.(typesSeen := c.stats.typesSeen + ChannelsOf(appends)))
  }

  /** A signal-quality score of four values that are not numbers (four
      Nones, say) passes the length test: it is handed to the store, which
      refuses it, and its dataset is still counted as seen. */
  lemma SizedQualityCountsAsSeen(c: FrenzCollector, scores: map<string, Score>, now: real)
    requires Wf(c) && c.streamer.Some? && c.storage.Some?
    requires "sqc_scores" in scores && scores["sqc_scores"] == Sized(4)
    ensures Append(Name(ScoresSignalQuality), Storage.Unconvertible) in ScoreAppends(scores)
    ensures ScoresSignalQuality in ProcessScores(c, scores, now).stats.typesSeen
  {
    TableCarries(scores, ScoreTable, 4);
    var appends := ScoreAppends(scores);
    var k :| 0 <= k < |appends| && appends[k] == Append(Name(ScoresSignalQuality), Storage.Unconvertible);
    ParseName(ScoresSignalQuality);
    assert Parse(appends[k].name) == Some(ScoresSignalQuality);
  }

  /** A conforming raw snapshot processed while recording puts every one of
      its rows into the session. */
  lemma ConformingRawIsStored(c: FrenzCollector, snap: RawSnapshot, now: real)
    requires Wf(c) && c.streamer.Some? && c.storage.Some? && c.storage.value.recording
    requires Conforming(snap)
    ensures StorageProps.Total(ProcessRawData(c, snap, now).storage.value)
      == StorageProps.Total(c.storage.value) + |RawAppends(snap)|
  {
    RawAppendsFit(snap);
    FittingAppendsAccepted(c.storage.value, RawAppends(snap), now);
  }

  /** Logs an event through the session's event log; false when there is no
      log or the log refuses the event. */
  function LogEvent(c: FrenzCollector, d: Events.Description, category: string, now: real, iso: string)
    : (r: (FrenzCollector, bool))
    requires Wf(c)
    ensures Wf(r.0)
    ensures c.events.None? ==> r == (c, false)
    ensures r.1 <==> c.events.Some? && Events.LogEvent(c.events.value, d, category, now, iso).Ok?
    ensures !r.1 ==> r.0 == c
    ensures r.1 ==> r.0 == c.(events := Some(Events.LogEvent(c.events.value, d, category, now, iso).value.0))
  {
    if c.events.None? then (c, false)
    else match Events.LogEvent(c.events.value, d, category, now, iso)
      case Ok((lg, _)) => (c.(events := Some(lg)), true)
      case Err(_) => (c, false)
  }

  /** After a session ends, logging is refused until the next one starts. */
  lemma NoLoggingAfterStop(c: FrenzCollector, now: real, iso: string, d: Events.Description, category: string, t: real)
    requires Wf(c) && c.recording
    ensures var c' := StopRecording(c, now, iso).0;
      LogEvent(c', d, category, t, iso) == (c', false)
  {
  }
}

=== FILE: common.dfy ===
/** Small shared vocabulary: an optional value, and Python's truthiness of an
    optional string (`x or y`, `if not x`). */
module Common {

  datatype Option<+T> = None | Some(value: T) {

    /** The wrapped value, or `default` when there is none. */
    function GetOr(default: T): T {
      match this
      case Some(v) => v
      case None => default
    }
  }

  /** A return value or the exception raised instead. */
  datatype Result<+T, +E> = Ok(value: T) | Err(error: E)

  /** Python truthiness of an optional string: `None` and `""` are false. */
  predicate Truthy(s: Option<string>) {
    s.Some? && |s.value| > 0
  }

  /** Python's `a or b` on optional strings: `a` when it is truthy, else `b`. */
  function OrElse(a: Option<string>, b: Option<string>): (r: Option<string>)
    ensures Truthy(a) ==> r == a
    ensures !Truthy(a) ==> r == b
  {
    if Truthy(a) then a else b
  }

  /** The elements of `xs` satisfying `p`, in their original order. */
  function Filter<T(==)>(xs: seq<T>, p: T -> bool): (r: seq<T>)
    ensures |r| <= |xs|
    ensures forall i :: 0 <= i < |r| ==> p(r[i]) && r[i] in xs
    ensures forall i :: 0 <= i < |xs| && p(xs[i]) ==> xs[i] in r
    ensures Subsequence(r, xs)
  {
    if xs == [] then []
    else if p(xs[0]) then [xs[0]] + Filter(xs[1..], p)
    else Filter(xs[1..], p)
  }

  /** The number of elements of `xs` satisfying `p`. */
  function CountWhere<T>(xs: seq<T>, p: T -> bool): (n: nat)
    ensures n <= |xs|
  {
    if xs == [] then 0 else (if p(xs[0]) then 1 else 0) + CountWhere(xs[1..], p)
  }

  /** Filtering keeps exactly the elements that satisfy the predicate. */
  lemma {:induction false} FilterCount<T>(xs: seq<T>, p: T -> bool)
    ensures |Filter(xs, p)| == CountWhere(xs, p)
  {
    if xs != [] {
      FilterCount(xs[1..], p);
    }
  }

  /** `xs` can be obtained from `ys` by deleting elements. */
  predicate Subsequence<T(==)>(xs: seq<T>, ys: seq<T>)
    decreases |ys|
  {
    if xs == [] then true
    else if ys == [] then false
    else if xs[0] == ys[0] then Subsequence(xs[1..], ys[1..])
    else Subsequence(xs, ys[1..])
  }

  /** Filtering by `p` and then by `q` is filtering once by both. */
  lemma {:induction false} FilterFilter<T>(xs: seq<T>, p: T -> bool, q: T -> bool, both: T -> bool)
    requires forall x :: both(x) == (p(x) && q(x))
    ensures Filter(Filter(xs, p), q) == Filter(xs, both)
  {
    if xs != [] {
      FilterFilter(xs[1..], p, q, both);
      if p(xs[0]) {
        assert Filter(xs, p) == [xs[0]] + Filter(xs[1..], p);
        assert Filter(xs, p)[1..] == Filter(xs[1..], p);
      }
    }
  }

  /** Filtering by a predicate that holds everywhere keeps everything. */
  lemma {:induction false} FilterAll<T>(xs: seq<T>, p: T -> bool)
    requires forall i :: 0 <= i < |xs| ==> p(xs[i])
    ensures Filter(xs, p) == xs
  {
    if xs != [] {
      FilterAll(xs[1..], p);
    }
  }

  function Min(a: int, b: int): (r: int)
    ensures r <= a && r <= b
    ensures r == a || r == b
  {
    if a <= b then a else b
  }
}

=== FILE: configuration.dfy ===
/** The system's configuration: four named sections (device, storage,
    display, logging) of named values, a validator that walks a fixed list of
    range rules in order, and lookups and overrides by section and key. */
module Configuration {
  import opened Common

  /** A configuration value as Python holds it.  Paths are kept as text and
      Python's bool, which compares as 0 or 1, is kept apart from int. */
  datatype Value =
    | Int(i: int)
    | Real(x: real)
    | Bool(b: bool)
    | Text(s: string)
    | Null
    | Dict(entries: seq<(string, Value)>)

  /** Section name to the section's key/value map. */
  datatype Config = Config(sections: map<string, map<string, Value>>)

  const SectionNames: set<string> := {"device", "storage", "display", "logging"}

  /** The number Python compares when the value meets `<=` against an int;
      None for values where the comparison raises a TypeError. */
  function AsNumber(v: Value): (r: Option<real>)
    ensures r.Some? <==> v.Int? || v.Real? || v.Bool?
  {
    match v
    case Int(i) => Some(i as real)
    case Real(x) => Some(x)
    case Bool(b) => Some(if b then 1.0 else 0.0)
    case _ => None
  }

  /** Python's `d[k]` on an ordered dict: the first entry with key `k`. */
  function Lookup(entries: seq<(string, Value)>, k: string): (r: Option<Value>)
    ensures r.Some? <==> exists i :: 0 <= i < |entries| && entries[i].0 == k
  {
    if entries == [] then None
    else if entries[0].0 == k then Some(entries[0].1)
    else
      var rest := Lookup(entries[1..], k);
      assert forall i :: 0 < i < |entries| ==> entries[i] == entries[1..][i - 1];
      rest
  }

  // ---------------------------------------------------------------------
  // Validation rules

  datatype Check =
    | Positive
    | NonNegative
    | Between(lo: int, hi: int)
    /** every value of a dict is positive */
    | AllPositive
    /** the dict's `height` entry is positive */
    | HeightPositive

  datatype Rule = Rule(section: string, key: string, check: Check)

  /** The validator's rules, in the order it applies them. */
  const Rules: seq<Rule> := DeviceRules + StorageRules + DisplayRules + LoggingRules

  const DeviceRules: seq<Rule> := [
    Rule("device", "connection_timeout", Positive),
    Rule("device", "reconnect_attempts", NonNegative),
    Rule("device", "scan_timeout", Positive),
    Rule("device", "reconnect_delay", Positive),
    Rule("device", "max_reconnect_delay", Positive)]

  const StorageRules: seq<Rule> := [
    Rule("storage", "buffer_size_minutes", Positive),
    Rule("storage", "auto_save_interval", Positive),
    Rule("storage", "file_rotation_hours", Positive),
    Rule("storage", "compression_level", Between(0, 9)),
    Rule("storage", "chunk_size", Positive),
    Rule("storage", "max_file_size_gb", Positive)]

  const DisplayRules: seq<Rule> := [
    Rule("display", "default_display_window", Positive),
    Rule("display", "max_display_points", Positive),
    Rule("display", "downsample_threshold", Positive),
    Rule("display", "memory_limit_mb", Positive),
    Rule("display", "update_intervals", AllPositive),
    Rule("display", "plot_settings", HeightPositive)]

  const LoggingRules: seq<Rule> := [
    Rule("logging", "max_log_size_mb", Positive),
    Rule("logging", "backup_count", NonNegative)]

  /** What one rule does: pass, raise ConfigurationError, or raise some other
      exception (a TypeError on comparing text or None with a number, a
      KeyError or AttributeError on a value of the wrong kind). */
  datatype Outcome = Pass | Fail | Crash

  function CheckNumber(v: Value, c: Check): (o: Outcome)
    requires !c.AllPositive? && !c.HeightPositive?
    ensures o == Crash <==> AsNumber(v).None?
  {
    match AsNumber(v)
    case None => Crash
    case Some(x) =>
      match c
      case Positive => if x <= 0.0 then Fail else Pass
      case NonNegative => if x < 0.0 then Fail else Pass
      case Between(lo, hi) => if !(lo as real <= x <= hi as real) then Fail else Pass
  }

  /** The entries of an interval dict checked in order; the first entry that
      is not a positive number decides. */
  function CheckEntries(entries: seq<(string, Value)>): (o: Outcome)
    ensures o == Pass <==> forall i :: 0 <= i < |entries| ==> PositiveNumber(entries[i].1)
  {
    if entries == [] then Pass
    else
      var o := CheckNumber(entries[0].1, Positive);
      if o != Pass then o
      else
        var rest := CheckEntries(entries[1..]);
        assert forall i :: 0 < i < |entries| ==> entries[i] == entries[1..][i - 1];
        rest
  }

  predicate PositiveNumber(v: Value) {
    AsNumber(v).Some? && AsNumber(v).value > 0.0
  }

  /** Runs one rule on its value (None when the key is absent). */
  function CheckValue(v: Option<Value>, c: Check): (o: Outcome)
  {
    match v
    case None => Crash
    case Some(v) =>
      match c
      case AllPositive => if v.Dict? then CheckEntries(v.entries) else Crash
      case HeightPositive =>
        if v.Dict? && Lookup(v.entries, "height").Some? then
          CheckNumber(Lookup(v.entries, "height").value, Positive)
        else Crash
      case _ => CheckNumber(v, c)
  }

  function ValueAt(cfg: Config, section: string, key: string): Option<Value> {
    if section in cfg.sections && key in cfg.sections[section]
    then Some(cfg.sections[section][key]) else None
  }

  function RunRule(cfg: Config, r: Rule): Outcome {
    CheckValue(ValueAt(cfg, r.section, r.key), r.check)
  }

  /** The declarative reading of a rule: the value is there and is a number
      in the rule's range. */
  predicate Holds(cfg: Config, r: Rule) {
    var v := ValueAt(cfg, r.section, r.key);
    v.Some? &&
    match r.check
    case Positive => PositiveNumber(v.value)
    case NonNegative => AsNumber(v.value).Some? && AsNumber(v.value).value >= 0.0
    case Between(lo, hi) =>
      AsNumber(v.value).Some? && lo as real <= AsNumber(v.value).value <= hi as real
    case AllPositive =>
      v.value.Dict? && forall i :: 0 <= i < |v.value.entries| ==> PositiveNumber(v.value.entries[i].1)
    case HeightPositive =>
      v.value.Dict? && Lookup(v.value.entries, "height").Some?
      && PositiveNumber(Lookup(v.value.entries, "height").value)
  }

  lemma RunRuleHolds(cfg: Config, r: Rule)
    ensures RunRule(cfg, r) == Pass <==> Holds(cfg, r)
  {
  }

  /** The result of validating: every rule passed, or the first rule that
      did not and how it failed. */
  datatype Verdict = Valid | Invalid(rule: Rule) | Crashed(rule: Rule)

  function ValidateFrom(cfg: Config, rules: seq<Rule>): (v: Verdict)
  {
    if rules == [] then Valid
    else match RunRule(cfg, rules[0])
      case Pass => ValidateFrom(cfg, rules[1..])
      case Fail => Invalid(rules[0])
      case Crash => Crashed(rules[0])
  }

  /** Rule `i` is the first of `rules` that does not pass. */
  predicate FirstNonPassing(cfg: Config, rules: seq<Rule>, i: int) {
    0 <= i < |rules| && RunRule(cfg, rules[i]) != Pass
    && forall j :: 0 <= j < i ==> RunRule(cfg, rules[j]) == Pass
  }

  /** The validator: the rules in order, stopping at the first that does not
      pass, which decides between a rejection (ConfigurationError) and a
      crash (the TypeError of comparing a non-number). */
  function Validate(cfg: Config): (v: Verdict)
    ensures v.Invalid? ==> v.rule in Rules && RunRule(cfg, v.rule) == Fail
    ensures v.Crashed? ==> v.rule in Rules && RunRule(cfg, v.rule) == Crash
    ensures v.Invalid? || v.Crashed? ==>
      exists i :: FirstNonPassing(cfg, Rules, i) && Rules[i] == v.rule
  {
    ValidateFromStops(cfg, Rules);
    ValidateFrom(cfg, Rules)
  }

  lemma {:induction false} ValidateFromStops(cfg: Config, rules: seq<Rule>)
    ensures var v := ValidateFrom(cfg, rules);
      (v.Invalid? ==> v.rule in rules && RunRule(cfg, v.rule) == Fail)
      && (v.Crashed? ==> v.rule in rules && RunRule(cfg, v.rule) == Crash)
      && (v.Invalid? || v.Crashed? ==> exists i :: FirstNonPassing(cfg, rules, i) && rules[i] == v.rule)
  {
    if rules != [] {
      ValidateFromStops(cfg, rules[1..]);
      var v := ValidateFrom(cfg, rules);
      if RunRule(cfg, rules[0]) != Pass {
        assert FirstNonPassing(cfg, rules, 0);
      } else if v.Invalid? || v.Crashed? {
        var i :| FirstNonPassing(cfg, rules[1..], i) && rules[1..][i] == v.rule;
        assert FirstNonPassing(cfg, rules, i + 1) by {
          forall j | 0 <= j < i + 1 ensures RunRule(cfg, rules[j]) == Pass {
            if j > 0 {
              assert rules[j] == rules[1..][j - 1];
            }
          }
        }
      }
    }
  }

  lemma {:induction false} ValidateFromValid(cfg: Config, rules: seq<Rule>)
    ensures ValidateFrom(cfg, rules) == Valid <==> forall k :: 0 <= k < |rules| ==> Holds(cfg, rules[k])
  {
    if rules != [] {
      ValidateFromValid(cfg, rules[1..]);
      RunRuleHolds(cfg, rules[0]);
      assert forall k :: 0 < k < |rules| ==> rules[k] == rules[1..][k - 1];
    }
  }

  /** A configuration validates exactly when every rule holds. */
  lemma ValidIffAllHold(cfg: Config)
    ensures Validate(cfg) == Valid <==> forall k :: 0 <= k < |Rules| ==> Holds(cfg, Rules[k])
  {
    ValidateFromValid(cfg, Rules);
  }

  // ---------------------------------------------------------------------
  // Defaults

  /** The configuration loaded with no environment variables set. */
  function Defaults(): (cfg: Config)
    ensures cfg.sections.Keys == SectionNames
  {
    Config(map["device" := DeviceDefaults(), "storage" := StorageDefaults(),
               "display" := DisplayDefaults(), "logging" := LoggingDefaults()])
  }

  function DeviceDefaults(): map<string, Value> {
    map[
      "default_device_id" := Null,
      "default_product_key" := Null,
      "connection_timeout" := Int(30),
      "reconnect_attempts" := Int(3),
      "auto_connect_on_start" := Bool(true),
      "scan_timeout" := Int(10),
      "reconnect_delay" := Real(1.0),
      "max_reconnect_delay" := Real(60.0)]
  }

  function StorageDefaults(): map<string, Value> {
    map[
      "data_dir" := Text("data"),
      "buffer_size_minutes" := Int(5),
      "auto_save_interval" := Int(300),
      "file_rotation_hours" := Int(24),
      "compression" := Text("gzip"),
      "compression_level" := Int(4),
      "chunk_size" := Int(10000),
      "max_file_size_gb" := Real(10.0),
      "backup_enabled" := Bool(false),
      "backup_dir" := Text("data/backups")]
  }

  function DisplayDefaults(): map<string, Value> {
    map[
      "default_display_window" := Int(600),
      "max_display_points" := Int(1000),
      "downsample_threshold" := Int(5000),
      "memory_limit_mb" := Int(500),
      "auto_scroll" := Bool(true),
      "update_intervals" := Dict([
        ("focus", Int(2)), ("poas", Int(30)), ("power_bands", Int(2)),
        ("signal_quality", Int(5)), ("posture", Int(5)), ("sleep_stage", Int(30))]),
      "plot_settings" := Dict([
        ("theme", Text("plotly_white")), ("height", Int(400)),
        ("show_legend", Bool(true)), ("animate_transitions", Bool(false))]),
      "color_schemes" := Dict([
        ("focus", Text("#1f77b4")), ("poas", Text("#ff7f0e")),
        ("signal_quality_good", Text("#2ca02c")), ("signal_quality_poor", Text("#d62728"))])]
  }

  function LoggingDefaults(): map<string, Value> {
    map[
      "log_level" := Int(20),
      "log_file" := Text("frenz_collector.log"),
      "log_dir" := Text("logs"),
      "log_rotation" := Bool(true),
      "max_log_size_mb" := Int(10),
      "backup_count" := Int(5),
      "console_logging" := Bool(true),
      "debug_mode" := Bool(false),
      "log_format" := Text("%(asctime)s - %(name)s - %(levelname)s - %(message)s"),
      "date_format" := Text("%Y-%m-%d %H:%M:%S")]
  }

  /** Validating against two rule lists in a row is validating against the
      first and, only if that passed, the second. */
  lemma {:induction false} ValidateFromConcat(cfg: Config, a: seq<Rule>, b: seq<Rule>)
    ensures ValidateFrom(cfg, a + b) ==
      if ValidateFrom(cfg, a) == Valid then ValidateFrom(cfg, b) else ValidateFrom(cfg, a)
  {
    if a != [] {
      assert (a + b)[0] == a[0];
      assert (a + b)[1..] == a[1..] + b;
      ValidateFromConcat(cfg, a[1..], b);
    } else {
      assert a + b == b;
    }
  }

  lemma DeviceDefaultsValid(cfg: Config)
    requires "device" in cfg.sections && cfg.sections["device"] == DeviceDefaults()
    ensures ValidateFrom(cfg, DeviceRules) == Valid
  {
    var m := DeviceDefaults();
    assert m["connection_timeout"] == Int(30);
    assert m["reconnect_attempts"] == Int(3);
    assert m["scan_timeout"] == Int(10);
    assert m["reconnect_delay"] == Real(1.0);
    assert m["max_reconnect_delay"] == Real(60.0);
    ValidateFromValid(cfg, DeviceRules);
  }

  lemma StorageDefaultsValid(cfg: Config)
    requires "storage" in cfg.sections && cfg.sections["storage"] == StorageDefaults()
    ensures ValidateFrom(cfg, StorageRules) == Valid
  {
    var m := StorageDefaults();
    assert m["buffer_size_minutes"] == Int(5);
    assert m["auto_save_interval"] == Int(300);
    assert m["file_rotation_hours"] == Int(24);
    assert m["compression_level"] == Int(4);
    assert m["chunk_size"] == Int(10000);
    assert m["max_file_size_gb"] == Real(10.0);
    ValidateFromValid(cfg, StorageRules);
  }

  lemma DisplayDefaultsValid(cfg: Config)
    requires "display" in cfg.sections && cfg.sections["display"] == DisplayDefaults()
    ensures ValidateFrom(cfg, DisplayRules) == Valid
  {
    DisplayLimitsValid(cfg);
    IntervalDefaultsValid(cfg);
    PlotDefaultsValid(cfg);
    ValidateFromValid(cfg, DisplayRules);
  }

  lemma DisplayLimitsValid(cfg: Config)
    requires "display" in cfg.sections && cfg.sections["display"] == DisplayDefaults()
    ensures forall k :: 0 <= k < 4 ==> Holds(cfg, DisplayRules[k])
  {
    var m := DisplayDefaults();
    assert m["default_display_window"] == Int(600);
    assert m["max_display_points"] == Int(1000);
    assert m["downsample_threshold"] == Int(5000);
    assert m["memory_limit_mb"] == Int(500);
  }

  lemma IntervalDefaultsValid(cfg: Config)
    requires "display" in cfg.sections && cfg.sections["display"] == DisplayDefaults()
    ensures Holds(cfg, Rule("display", "update_intervals", AllPositive))
  {
    var intervals := DisplayDefaults()["update_intervals"].entries;
    assert ValueAt(cfg, "display", "update_intervals") == Some(Dict(intervals));
    assert forall i :: 0 <= i < |intervals| ==> PositiveNumber(intervals[i].1);
  }

  lemma PlotDefaultsValid(cfg: Config)
    requires "display" in cfg.sections && cfg.sections["display"] == DisplayDefaults()
    ensures Holds(cfg, Rule("display", "plot_settings", HeightPositive))
  {
    var plot := DisplayDefaults()["plot_settings"].entries;
    assert ValueAt(cfg, "display", "plot_settings") == Some(Dict(plot));
    assert Lookup(plot, "height") == Some(Int(400)) by {
      assert plot[0].0 != "height";
      assert plot[1..][0].0 == "height";
    }
  }

  lemma LoggingDefaultsValid(cfg: Config)
    requires "logging" in cfg.sections && cfg.sections["logging"] == LoggingDefaults()
    ensures ValidateFrom(cfg, LoggingRules) == Valid
  {
    var m := LoggingDefaults();
    assert m["max_log_size_mb"] == Int(10);
    assert m["backup_count"] == Int(5);
    ValidateFromValid(cfg, LoggingRules);
  }

  /** The defaults pass validation. */
  lemma DefaultsValid()
    ensures Validate(Defaults()) == Valid
  {
    var cfg := Defaults();
    DeviceDefaultsValid(cfg);
    StorageDefaultsValid(cfg);
    DisplayDefaultsValid(cfg);
    LoggingDefaultsValid(cfg);
    ValidateFromConcat(cfg, DeviceRules + StorageRules + DisplayRules, LoggingRules);
    ValidateFromConcat(cfg, DeviceRules + StorageRules, DisplayRules);
    ValidateFromConcat(cfg, DeviceRules, StorageRules);
  }

  // ---------------------------------------------------------------------
  // Lookup and override

  /** The value at `section`/`key`, or `default` when either is unknown. */
  function Get(cfg: Config, section: string, key: string, default: Value): (v: Value)
    ensures section !in cfg.sections ==> v == default
    ensures section in cfg.sections && key !in cfg.sections[section] ==> v == default
    ensures ValueAt(cfg, section, key).Some? ==> v == ValueAt(cfg, section, key).value
  {
    if section !in cfg.sections then default
    else if key in cfg.sections[section] then cfg.sections[section][key]
    else default
  }

  datatype ConfigError = UnknownSection | UnknownKey | Rejected(rule: Rule) | Raised(rule: Rule)

  /** A copy of a whole section; an unknown section is a ConfigurationError. */
  function GetSection(cfg: Config, section: string): (r: Result<map<string, Value>, ConfigError>)
    ensures r.Err? <==> section !in cfg.sections
    ensures r.Err? ==> r.error == UnknownSection
    ensures r.Ok? ==> forall k :: k in r.value <==> ValueAt(cfg, section, k).Some?
    ensures r.Ok? ==> forall k :: k in r.value ==> r.value[k] == ValueAt(cfg, section, k).value
  {
    if section !in cfg.sections then Err(UnknownSection) else Ok(cfg.sections[section])
  }

  function Set(cfg: Config, section: string, key: string, v: Value): Config
    requires section in cfg.sections
  {
    Config(cfg.sections[section := cfg.sections[section][key := v]])
  }

  /** `cfg'` differs from `cfg` at most at `section`/`key`, which holds `v`. */
  ghost predicate OnlyChanged(cfg: Config, cfg': Config, section: string, key: string, v: Value) {
    cfg'.sections.Keys == cfg.sections.Keys
    && (forall s, k :: (s != section || k != key) ==> ValueAt(cfg', s, k) == ValueAt(cfg, s, k))
    && ValueAt(cfg', section, key) == Some(v)
  }

  /** `override` as written: the old value is restored only when validation
      raises ConfigurationError; any other exception from the validator
      propagates with the new value left in place.  Returns the configuration
      afterwards and the exception raised, if any. */
  function OverrideAsWritten(cfg: Config, section: string, key: string, v: Value, validate: bool)
    : (r: (Config, Option<ConfigError>))
    ensures section !in cfg.sections ==> r == (cfg, Some(UnknownSection))
    ensures section in cfg.sections && key !in cfg.sections[section] ==> r == (cfg, Some(UnknownKey))
    ensures r.1.Some? && r.1.value.Raised? ==> OnlyChanged(cfg, r.0, section, key, v) && Validate(r.0).Crashed?
    ensures r.1.None? ==> OnlyChanged(cfg, r.0, section, key, v)
    ensures section in cfg.sections && key in cfg.sections[section] ==>
      var s' := Set(cfg, section, key, v);
      && (validate && Validate(s').Crashed? ==> r == (s', Some(Raised(Validate(s').rule))))
      && (validate && Validate(s').Invalid? ==> r == (cfg, Some(Rejected(Validate(s').rule))))
      && (!validate || Validate(s') == Valid ==> r == (s', None))
  {
    if section !in cfg.sections then (cfg, Some(UnknownSection))
    else if key !in cfg.sections[section] then (cfg, Some(UnknownKey))
    else
      var cfg' := Set(cfg, section, key, v);
      if !validate then (cfg', None)
      else match Validate(cfg')
        case Valid => (cfg', None)
        case Invalid(rule) => (cfg, Some(Rejected(rule)))
        case Crashed(rule) => (cfg', Some(Raised(rule)))
  }

  /** Overriding the connection timeout of the defaults with the text "30"
      raises, yet leaves the text in place and the configuration invalid. */
  lemma OverrideLeavesInvalidValue()
    ensures var r := OverrideAsWritten(Defaults(), "device", "connection_timeout", Text("30"), true);
      r.1.Some? && r.0 != Defaults() && !(Validate(r.0) == Valid)
  {
    var cfg' := Set(Defaults(), "device", "connection_timeout", Text("30"));
    assert ValueAt(cfg', "device", "connection_timeout") == Some(Text("30"));
    assert Rules[0] == Rule("device", "connection_timeout", Positive);
    assert RunRule(cfg', Rules[0]) == Crash;
    assert ValidateFrom(cfg', Rules) == Crashed(Rules[0]);
  }

  /** `override` as its rollback intends: an unknown section or key changes
      nothing, and a validated override either leaves a valid configuration
      in which only that key changed, or changes nothing and raises. */
  function Override(cfg: Config, section: string, key: string, v: Value, validate: bool)
    : (r: (Config, Option<ConfigError>))
    ensures r.1.Some? ==> r.0 == cfg
    ensures r.1.Some? <==>
      (section !in cfg.sections || key !in cfg.sections[section]
       || (validate && Validate(Set(cfg, section, key, v)) != Valid))
    ensures r.1.None? ==> OnlyChanged(cfg, r.0, section, key, v)
    ensures r.1.None? && validate ==> Validate(r.0) == Valid
  {
    if section !in cfg.sections then (cfg, Some(UnknownSection))
    else if key !in cfg.sections[section] then (cfg, Some(UnknownKey))
    else
      var cfg' := Set(cfg, section, key, v);
      if !validate then (cfg', None)
      else match Validate(cfg')
        case Valid => (cfg', None)
        case Invalid(rule) => (cfg, Some(Rejected(rule)))
        case Crashed(rule) => (cfg, Some(Raised(rule)))
  }

  /** The two readings differ only where the validator raises something other
      than ConfigurationError. */
  lemma OverrideAgrees(cfg: Config, section: string, key: string, v: Value, validate: bool)
    requires OverrideAsWritten(cfg, section, key, v, validate).1.None?
      || !OverrideAsWritten(cfg, section, key, v, validate).1.value.Raised?
    ensures Override(cfg, section, key, v, validate) == OverrideAsWritten(cfg, section, key, v, validate)
  {
  }

  /** After a successful override, reading the key back gives the new value. */
  lemma GetAfterOverride(cfg: Config, section: string, key: string, v: Value, validate: bool, default: Value)
    requires Override(cfg, section, key, v, validate).1.None?
    ensures Get(Override(cfg, section, key, v, validate).0, section, key, default) == v
  {
  }

  /** Starting from the defaults, a validated override can never produce a
      configuration that fails validation. */
  lemma OverrideKeepsValid(section: string, key: string, v: Value)
    ensures Validate(Override(Defaults(), section, key, v, true).0) == Valid
  {
    DefaultsValid();
  }
}

=== FILE: device.dfy ===
/** The headband's connection manager: a status, the live streamer (if any),
    the last device connected, and the light setting applied at connection
    time.  Scanning, connecting and reconnecting talk to a device library;
    what that library does is a parameter of each operation here. */
module Device {
  import opened Common

  datatype Status = Disconnected | Scanning | Connecting | Connected | Error

  /** A streamer as created for one device; `lightOff` is fixed when it is
      made. */
  datatype Streamer = Streamer(deviceId: string, productKey: string, lightOff: bool)

  /** The record of the device last connected. */
  datatype Link = Link(deviceId: string, productKey: string, connectedAt: real)

  /** Why the last operation failed. */
  datatype Failure = ScanFailed | MissingCredentials | TimedOut | StartFailed | Crashed

  datatype Manager = Manager(
    connectionTimeout: int,
    reconnectAttempts: int,
    lightOff: bool,
    status: Status,
    streamer: Option<Streamer>,
    connected: Option<Link>,
    /** a reconnect worker is running */
    reconnecting: bool,
    stopReconnect: bool,
    lastError: Option<Failure>)

  function NewManager(connectionTimeout: int, reconnectAttempts: int): (m: Manager)
    ensures m.status == Disconnected && m.streamer.None? && m.connected.None?
    ensures m.lightOff && !m.reconnecting
  {
    Manager(connectionTimeout, reconnectAttempts, true, Disconnected, None, None, false, false, None)
  }

  /** Connected status and a live streamer. */
  predicate IsConnected(m: Manager) {
    m.status == Connected && m.streamer.Some?
  }

  /** The streamer, only while connected. */
  function GetStreamer(m: Manager): (r: Option<Streamer>)
    ensures r.Some? <==> IsConnected(m)
    ensures r.Some? ==> r == m.streamer
  {
    if IsConnected(m) then m.streamer else None
  }

  // ---------------------------------------------------------------------
  // Scanning

  /** Python's `str.upper` on one ASCII character; others are kept. */
  function UpperChar(c: char): (u: char)
    ensures 'a' <= c <= 'z' ==> 'A' <= u <= 'Z' && u as int == c as int - 32
    ensures !('a' <= c <= 'z') ==> u == c
  {
    if 'a' <= c <= 'z' then (c as int - 32) as char else c
  }

  function Upper(s: string): (r: string)
    ensures |r| == |s|
    ensures forall i :: 0 <= i < |s| ==> r[i] == UpperChar(s[i])
  {
    seq(|s|, i requires 0 <= i < |s| => UpperChar(s[i]))
  }

  /** `t` occurs in `s` as a contiguous piece. */
  predicate Contains(s: string, t: string) {
    (|t| <= |s| && s[..|t|] == t) || (s != [] && Contains(s[1..], t))
  }

  /** A string without an F contains no FRENZ. */
  lemma {:induction false} NoFNoFrenz(s: string)
    requires forall i :: 0 <= i < |s| ==> s[i] != 'F'
    ensures !Contains(s, "FRENZ")
  {
    if s != [] {
      NoFNoFrenz(s[1..]);
      if 5 <= |s| {
        assert s[..5][0] != "FRENZ"[0];
      }
    }
  }

  /** The scanner's report of one device is kept when its upper-cased name
      contains FRENZ. */
  predicate IsFrenz(name: string) {
    Contains(Upper(name), "FRENZ")
  }

  datatype Found = Found(id: string, name: string, rssi: int)

  function Format(names: seq<string>): (r: seq<Found>)
    ensures |r| == |names|
    ensures forall i :: 0 <= i < |r| ==> r[i] == Found(names[i], "FRENZ Band", -50)
  {
    if names == [] then [] else [Found(names[0], "FRENZ Band", -50)] + Format(names[1..])
  }

  /** The device ids of a scan result, in order. */
  function Ids(found: seq<Found>): (r: seq<string>)
    ensures |r| == |found|
    ensures forall i :: 0 <= i < |r| ==> r[i] == found[i].id
  {
    seq(|found|, i requires 0 <= i < |found| => found[i].id)
  }

  /** One scan.  `seen` is what the scanner reported, or None when it
      raised; a failed scan leaves the status at Error and returns nothing.
      A successful one keeps the FRENZ devices in the order seen, duplicates
      included: every kept id is a FRENZ name, every FRENZ name seen is
      kept, the kept ids are a subsequence of those seen, and there are as
      many as FRENZ names were seen. */
  function ScanDevices(m: Manager, seen: Option<seq<string>>): (r: (Manager, seq<Found>))
    ensures seen.None? ==> r.0.status == Error && r.0.lastError == Some(ScanFailed) && r.1 == []
    ensures seen.Some? ==> r.0.status == Disconnected && r.0.lastError == m.lastError
    ensures r.0.streamer == m.streamer && r.0.connected == m.connected
    ensures seen.Some? ==> forall i :: 0 <= i < |r.1| ==>
      r.1[i].name == "FRENZ Band" && r.1[i].rssi == -50 && r.1[i].id in seen.value && IsFrenz(r.1[i].id)
    ensures seen.Some? ==> forall i :: 0 <= i < |seen.value| && IsFrenz(seen.value[i]) ==>
      exists j :: 0 <= j < |r.1| && r.1[j].id == seen.value[i]
    ensures seen.Some? ==> Subsequence(Ids(r.1), seen.value)
    ensures seen.Some? ==> |r.1| == CountWhere(seen.value, IsFrenz)
  {
    match seen
    case None => (m.(status := Error, lastError := Some(ScanFailed)), [])
    case Some(names) =>
      var kept := Filter(names, IsFrenz);
      assert forall i :: 0 <= i < |names| && IsFrenz(names[i]) ==> names[i] in kept;
      assert Ids(Kept(names)) == kept;
      FilterCount(names, IsFrenz);
      (m.(status := Disconnected), Kept(names))
  }

  /** The report of the FRENZ devices among `names`, in order. */
  function Kept(names: seq<string>): seq<Found> {
    Format(Filter(names, IsFrenz))
  }

  /** Scanning again when only the kept devices are around finds exactly
      the same devices. */
  lemma ScanRescan(m: Manager, names: seq<string>)
    ensures var r := ScanDevices(m, Some(names));
      ScanDevices(r.0, Some(Ids(r.1))).1 == r.1
  {
    var kept := Filter(names, IsFrenz);
    assert Ids(Kept(names)) == kept;
    FilterAll(kept, IsFrenz);
  }

  /** A concrete scan: the two FRENZ devices are kept, in order, whatever
      their case, and the headphones are dropped. */
  lemma ScanKeepsFrenzDevices(m: Manager)
    ensures ScanDevices(m, Some(["frenz-01", "Headphones", "FRENZ-02"])).1
      == [Found("frenz-01", "FRENZ Band", -50), Found("FRENZ-02", "FRENZ Band", -50)]
  {
    var names: seq<string> := ["frenz-01", "Headphones", "FRENZ-02"];
    assert ScanDevices(m, Some(names)).1 == Kept(names);
    KeptExample();
  }

  lemma KeptExample()
    ensures Kept(["frenz-01", "Headphones", "FRENZ-02"])
      == [Found("frenz-01", "FRENZ Band", -50), Found("FRENZ-02", "FRENZ Band", -50)]
  {
    KeepsFrenzNames();
    assert Format(["frenz-01", "FRENZ-02"])[1] == Found("FRENZ-02", "FRENZ Band", -50);
  }

  lemma KeepsFrenzNames()
    ensures Filter(["frenz-01", "Headphones", "FRENZ-02"], IsFrenz) == ["frenz-01", "FRENZ-02"]
  {
    LowerFrenz();
    DropsHeadphones();
    var names: seq<string> := ["frenz-01", "Headphones", "FRENZ-02"];
    assert names[1..] == ["Headphones", "FRENZ-02"];
  }

  lemma DropsHeadphones()
    ensures Filter(["Headphones", "FRENZ-02"], IsFrenz) == ["FRENZ-02"]
  {
    NoFrenzInHeadphones();
    KeepsUpperName();
    var names: seq<string> := ["Headphones", "FRENZ-02"];
    assert names[1..] == ["FRENZ-02"];
  }

  lemma KeepsUpperName()
    ensures Filter(["FRENZ-02"], IsFrenz) == ["FRENZ-02"]
  {
    UpperFrenz();
    var names: seq<string> := ["FRENZ-02"];
    assert names[1..] == [];
  }

  lemma LowerFrenz()
    ensures IsFrenz("frenz-01")
  {
    var u := Upper("frenz-01");
    assert u[0] == 'F' && u[1] == 'R' && u[2] == 'E' && u[3] == 'N' && u[4] == 'Z';
    assert u[..5] == "FRENZ";
  }

  lemma UpperFrenz()
    ensures IsFrenz("FRENZ-02")
  {
    var u := Upper("FRENZ-02");
    assert u[0] == 'F' && u[1] == 'R' && u[2] == 'E' && u[3] == 'N' && u[4] == 'Z';
    assert u[..5] == "FRENZ";
  }

  lemma NoFrenzInHeadphones()
    ensures !IsFrenz("Headphones")
  {
    var s := "Headphones";
    var u := Upper(s);
    forall i | 0 <= i < |u| ensures u[i] != 'F' {
      assert s[i] != 'f' && s[i] != 'F';
    }
    NoFNoFrenz(u);
  }

  // ---------------------------------------------------------------------
  // Connecting

  /** What happens once a streamer has been started. */
  datatype Attempt = DataFlows | NoData | StartRaises

  /** Stops the reconnect worker and the streamer and forgets the device.
      `fault` is an exception inside the clean-up, which still drops the
      streamer and the device but leaves the status at Error. */
  function Disconnect(m: Manager, fault: bool): (r: (Manager, bool))
    ensures r.1 == !fault
    ensures r.0.streamer.None? && r.0.connected.None?
    ensures r.0.status == (if fault then Error else Disconnected)
    ensures r.0.stopReconnect
    ensures !IsConnected(r.0)
    ensures r.0.lightOff == m.lightOff && r.0.lastError == m.lastError
  {
    var m1 := m.(stopReconnect := true, streamer := None, connected := None);
    if fault then (m1.(status := Error), false) else (m1.(status := Disconnected), true)
  }

  /** Connects to a device.  Missing arguments fall back to the environment's
      values (`envId`, `envKey`); an empty or absent id or key fails before
      anything else is touched.  An existing streamer is disconnected first.
      The new streamer carries the current light setting; the connection
      succeeds only if data flows before the timeout, which a non-positive
      timeout never allows.  A failure leaves no streamer and the status
      Error. */
  function Connect(m: Manager, id: Option<string>, key: Option<string>,
                   envId: Option<string>, envKey: Option<string>,
                   attempt: Attempt, now: real): (r: (Manager, Option<Streamer>))
    ensures r.1.Some? <==>
      (Truthy(if id.None? then envId else id) && Truthy(if key.None? then envKey else key)
       && attempt == DataFlows && m.connectionTimeout > 0)
    ensures r.1.Some? ==>
      && r.0.status == Connected && r.0.streamer == r.1
      && r.1.value.deviceId == (if id.None? then envId else id).value
      && r.1.value.productKey == (if key.None? then envKey else key).value
      && r.1.value.lightOff == m.lightOff
      && r.0.connected == Some(Link(r.1.value.deviceId, r.1.value.productKey, now))
    ensures r.1.None? ==> r.0.status == Error && r.0.streamer.None? && r.0.lastError.Some?
    ensures r.0.lightOff == m.lightOff && r.0.reconnecting == m.reconnecting
    ensures r.0.reconnectAttempts == m.reconnectAttempts && r.0.connectionTimeout == m.connectionTimeout
    ensures r.0.stopReconnect <==> m.stopReconnect || DisconnectsFirst(m, id, key, envId, envKey)
    ensures r.1.None? ==> r.0.connected == (if DisconnectsFirst(m, id, key, envId, envKey) then None else m.connected)
  {
    var m0 := m.(status := Connecting, lastError := None);
    var deviceId := if id.None? then envId else id;
    var productKey := if key.None? then envKey else key;
    if !Truthy(deviceId) || !Truthy(productKey) then
      (m0.(status := Error, lastError := Some(MissingCredentials), streamer := None), None)
    else
      Launch(m0, deviceId.value, productKey.value, attempt, now)
  }

  /** The part of a connection after the credentials are known: a held
      streamer is disconnected, a new one is started, and it counts as
      connected once data flows. */
  function Launch(m: Manager, id: string, key: string, attempt: Attempt, now: real)
    : (r: (Manager, Option<Streamer>))
    ensures r.1.Some? <==> attempt == DataFlows && m.connectionTimeout > 0
    ensures r.1.Some? ==>
      && r.0.status == Connected && r.0.streamer == r.1
      && r.1.value == Streamer(id, key, m.lightOff)
      && r.0.connected == Some(Link(id, key, now))
    ensures r.1.None? ==>
      && r.0.status == Error && r.0.streamer.None? && r.0.lastError.Some?
      && r.0.connected == (if m.streamer.Some? then None else m.connected)
    ensures r.0.lightOff == m.lightOff && r.0.reconnecting == m.reconnecting
    ensures r.0.reconnectAttempts == m.reconnectAttempts && r.0.connectionTimeout == m.connectionTimeout
    ensures r.0.stopReconnect <==> m.stopReconnect || m.streamer.Some?
  {
    var m1 := if m.streamer.Some? then Disconnect(m, false).0 else m;
    var s := Streamer(id, key, m1.lightOff);
    var m2 := m1.(streamer := Some(s));
    if attempt == StartRaises then
      (m2.(status := Error, lastError := Some(StartFailed), streamer := None), None)
    else if attempt == DataFlows && m2.connectionTimeout > 0 then
      (m2.(status := Connected, connected := Some(Link(s.deviceId, s.productKey, now))), Some(s))
    else
      (m2.(status := Error, lastError := Some(TimedOut), streamer := None), None)
  }

  /** Whether a connection attempt first disconnects a streamer the manager
      still holds, which raises the reconnect worker's stop flag and forgets
      the last device. */
  predicate DisconnectsFirst(m: Manager, id: Option<string>, key: Option<string>,
                             envId: Option<string>, envKey: Option<string>) {
    Truthy(if id.None? then envId else id) && Truthy(if key.None? then envKey else key)
    && m.streamer.Some?
  }

  /** A failed connection is never reported as connected. */
  lemma FailedConnectNotConnected(m: Manager, id: Option<string>, key: Option<string>,
                                  envId: Option<string>, envKey: Option<string>, attempt: Attempt, now: real)
    requires Connect(m, id, key, envId, envKey, attempt, now).1.None?
    ensures !IsConnected(Connect(m, id, key, envId, envKey, attempt, now).0)
    ensures GetStreamer(Connect(m, id, key, envId, envKey, attempt, now).0).None?
  {
  }

  /** A successful connection hands out the streamer it stored. */
  lemma ConnectedStreamer(m: Manager, id: Option<string>, key: Option<string>,
                          envId: Option<string>, envKey: Option<string>, attempt: Attempt, now: real)
    requires Connect(m, id, key, envId, envKey, attempt, now).1.Some?
    ensures var r := Connect(m, id, key, envId, envKey, attempt, now);
      IsConnected(r.0) && GetStreamer(r.0) == r.1
  {
  }

  /** `is_connected` across a connection's life: true exactly when the
      connection attempt handed out a streamer, and false again after any
      disconnect, after which the streamer is no longer handed out and the
      manager has no device to reconnect to. */
  lemma IsConnectedLifecycle(m: Manager, id: Option<string>, key: Option<string>,
                             envId: Option<string>, envKey: Option<string>,
                             attempt: Attempt, now: real, fault: bool)
    ensures var r := Connect(m, id, key, envId, envKey, attempt, now);
      && (IsConnected(r.0) <==> r.1.Some?)
      && (IsConnected(r.0) ==> GetStreamer(r.0) == r.1)
    ensures var d := Disconnect(Connect(m, id, key, envId, envKey, attempt, now).0, fault).0;
      !IsConnected(d) && GetStreamer(d).None? && !AutoReconnect(d).1
  {
  }

  // ---------------------------------------------------------------------
  // Light

  datatype LightReport = LightReport(lightOn: bool, lightOff: bool, requiresReconnect: bool)

  /** Changes the light setting for the next connection; a live connection
      keeps the old setting until it reconnects. */
  function ToggleLight(m: Manager, lightOn: bool): (r: (Manager, LightReport))
    ensures r.0 == m.(lightOff := !lightOn)
    ensures r.1.lightOn == lightOn && r.1.lightOff == !lightOn
    ensures r.1.requiresReconnect == IsConnected(m)
    ensures IsConnected(r.0) == IsConnected(m)
  {
    var m' := m.(lightOff := !lightOn);
    (m', LightReport(lightOn, m'.lightOff, IsConnected(m)))
  }

  /** The light setting chosen before a connection is the one the new
      streamer is made with. */
  lemma LightAppliedOnConnect(m: Manager, lightOn: bool, id: string, key: string, now: real)
    requires id != [] && key != [] && m.connectionTimeout > 0
    ensures var r := Connect(ToggleLight(m, lightOn).0, Some(id), Some(key), None, None, DataFlows, now);
      r.1.Some? && r.1.value.lightOff == !lightOn && r.1.value.deviceId == id
  {
  }

  // ---------------------------------------------------------------------
  // Reconnecting

  /** Starts the reconnect worker for the last device; refused when there is
      no last device or a worker is already running. */
  function AutoReconnect(m: Manager): (r: (Manager, bool))
    ensures r.1 <==> m.connected.Some? && !m.reconnecting
    ensures !r.1 ==> r.0 == m
    ensures r.1 ==> r.0 == m.(stopReconnect := false, reconnecting := true)
  {
    if m.connected.None? then (m, false)
    else if m.reconnecting then (m, false)
    else (m.(stopReconnect := false, reconnecting := true), true)
  }

  function Pow2(k: nat): (r: nat)
    ensures r >= 1
  {
    if k == 0 then 1 else 2 * Pow2(k - 1)
  }

  /** Seconds waited before attempt `k`: none before the first, then
      2^k capped at 30. */
  function Backoff(k: nat): (w: nat)
    ensures k == 0 ==> w == 0
    ensures k > 0 ==> w == Min(Pow2(k), 30)
    ensures w <= 30
  {
    if k == 0 then 0 else Min(Pow2(k), 30)
  }

  /** From the fifth attempt on, the wait is the 30-second cap. */
  lemma {:induction false} BackoffCapped(k: nat)
    requires k >= 5
    ensures Backoff(k) == 30
  {
    PowGrows(k);
  }

  lemma {:induction false} PowGrows(k: nat)
    requires k >= 5
    ensures Pow2(k) >= 32
  {
    if k > 5 {
      PowGrows(k - 1);
    }
  }

  /** Waits grow until the cap. */
  lemma {:induction false} BackoffMonotone(k: nat)
    ensures Backoff(k) <= Backoff(k + 1)
  {
    if k > 0 {
      assert Pow2(k + 1) == 2 * Pow2(k);
    }
  }

  /** What the worker observes in one round: whether the stop flag is set at
      the top of the round, whether it gets set during the wait, and how the
      connection attempt turns out. */
  datatype Round = Round(stopAtTop: bool, stopWhileWaiting: bool, attempt: Attempt)

  /** What the worker did: the waits before each attempt it made, and
      whether the last one connected. */
  datatype Run = Run(manager: Manager, waits: seq<nat>, reconnected: bool)

  /** The number of rounds `range(reconnect_attempts)` runs. */
  function Rounds(m: Manager): nat {
    if m.reconnectAttempts < 0 then 0 else m.reconnectAttempts
  }

  /** The reconnect worker from round `k` on.  The stop flag is read at the
      top of each round and during each wait: a stop seen at the top ends
      the loop like running out of rounds does, with status Error; a stop
      seen while waiting returns at once.  `rounds` carries the stops other
      threads request.  With `selfStop` the worker's own attempt raises the
      flag as the code does: connecting while a streamer is still held
      disconnects it first, and disconnecting sets the flag (joining the
      worker's own thread from inside it fails, which `disconnect` catches).
      Without `selfStop` the flag survives the worker's own attempts
      unchanged, which is the evidently intended behaviour. */
  function ReconnectFrom(m: Manager, link: Link, rounds: seq<Round>, k: nat, waits: seq<nat>, now: real,
                         selfStop: bool): (r: Run)
    requires |rounds| == Rounds(m) && k <= |rounds|
    requires |waits| == k && forall i :: 0 <= i < k ==> waits[i] == Backoff(i)
    ensures k <= |r.waits| <= |rounds|
    ensures r.waits[..k] == waits
    ensures forall i :: 0 <= i < |r.waits| ==> r.waits[i] == Backoff(i)
    ensures r.reconnected ==> IsConnected(r.manager)
    ensures r.manager.reconnectAttempts == m.reconnectAttempts
    ensures r.manager.connectionTimeout == m.connectionTimeout
    decreases |rounds| - k
  {
    if k == |rounds| || rounds[k].stopAtTop || m.stopReconnect then Run(m.(status := Error), waits, false)
    else if k > 0 && rounds[k].stopWhileWaiting then Run(m, waits, false)
    else
      var (m1, s) := Connect(m, Some(link.deviceId), Some(link.productKey), None, None, rounds[k].attempt, now);
      var m' := if selfStop then m1 else m1.(stopReconnect := m.stopReconnect);
      if s.Some? then Run(m', waits + [Backoff(k)], true)
      else ReconnectFrom(m', link, rounds, k + 1, waits + [Backoff(k)], now, selfStop)
  }

  /** The reconnect worker: at most `reconnect_attempts` attempts to connect
      to the last device, attempt `k` after waiting `Backoff(k)` seconds.
      Without a last device the worker raises at once and changes nothing.
      Once it returns no worker is running.  `selfStop` is as for
      `ReconnectFrom`: true for the code as written. */
  function ReconnectWorker(m: Manager, rounds: seq<Round>, now: real, selfStop: bool): (r: Run)
    requires |rounds| == Rounds(m)
    ensures |r.waits| <= Rounds(m)
    ensures forall i :: 0 <= i < |r.waits| ==> r.waits[i] == Backoff(i) <= 30
    ensures r.reconnected ==> IsConnected(r.manager)
    ensures !r.manager.reconnecting
    ensures m.connected.None? ==> r == Run(m.(reconnecting := false), [], false)
    ensures m.stopReconnect ==> r.waits == [] && !r.reconnected
  {
    match m.connected
    case None => Run(m.(reconnecting := false), [], false)
    case Some(link) =>
      var r := ReconnectFrom(m, link, rounds, 0, [], now, selfStop);
      r.(manager := r.manager.(reconnecting := false))
  }

  /** Rounds in which no other thread stops the worker and no attempt
      connects. */
  predicate AllFail(rounds: seq<Round>) {
    forall i :: 0 <= i < |rounds| ==>
      !rounds[i].stopAtTop && !rounds[i].stopWhileWaiting && rounds[i].attempt != DataFlows
  }

  lemma {:induction false} AllFailFrom(m: Manager, link: Link, rounds: seq<Round>, k: nat, waits: seq<nat>,
                                       now: real, selfStop: bool)
    requires |rounds| == Rounds(m) && k <= |rounds|
    requires |waits| == k && forall i :: 0 <= i < k ==> waits[i] == Backoff(i)
    requires AllFail(rounds) && !m.stopReconnect
    requires selfStop ==> m.streamer.None?
    ensures var r := ReconnectFrom(m, link, rounds, k, waits, now, selfStop);
      r.manager.status == Error && !r.reconnected && |r.waits| == |rounds|
      && (m.streamer.None? ==> r.manager.connected == m.connected)
    decreases |rounds| - k
  {
    if k < |rounds| {
      var (m1, s) := Connect(m, Some(link.deviceId), Some(link.productKey), None, None, rounds[k].attempt, now);
      var m' := if selfStop then m1 else m1.(stopReconnect := m.stopReconnect);
      AllFailFrom(m', link, rounds, k + 1, waits + [Backoff(k)], now, selfStop);
    }
  }

  /** The intended worker: when no other thread stops it and every attempt
      fails, it makes every attempt and leaves the status at Error. */
  lemma ReconnectExhausted(m: Manager, rounds: seq<Round>, now: real)
    requires |rounds| == Rounds(m) && m.connected.Some? && !m.stopReconnect
    requires AllFail(rounds)
    ensures var r := ReconnectWorker(m, rounds, now, false);
      r.manager.status == Error && !r.reconnected && |r.waits| == Rounds(m)
  {
    AllFailFrom(m, m.connected.value, rounds, 0, [], now, false);
  }

  /** The worker as written behaves the same when it starts without a held
      streamer. */
  lemma ReconnectExhaustedAsWritten(m: Manager, rounds: seq<Round>, now: real)
    requires |rounds| == Rounds(m) && m.connected.Some? && !m.stopReconnect && m.streamer.None?
    requires AllFail(rounds)
    ensures var r := ReconnectWorker(m, rounds, now, true);
      r.manager.status == Error && !r.reconnected && |r.waits| == Rounds(m)
      && r.manager.connected == m.connected
  {
    AllFailFrom(m, m.connected.value, rounds, 0, [], now, true);
  }

  /** The worker as written, started while the lost connection's streamer is
      still held: its first attempt disconnects that streamer, which raises
      the stop flag and forgets the last device, so it makes at most one
      attempt; if that attempt fails the manager cannot even be asked to
      reconnect again. */
  lemma OwnDisconnectStopsWorker(m: Manager, rounds: seq<Round>, now: real)
    requires |rounds| == Rounds(m) && m.connected.Some? && m.streamer.Some?
    requires m.connected.value.deviceId != [] && m.connected.value.productKey != []
    ensures var r := ReconnectWorker(m, rounds, now, true);
      |r.waits| <= 1
      && (|r.waits| == 1 && !r.reconnected ==> r.manager.connected.None? && !AutoReconnect(r.manager).1)
  {
    var link := m.connected.value;
    if 0 < |rounds| && !rounds[0].stopAtTop && !m.stopReconnect {
      var (m1, s) := Connect(m, Some(link.deviceId), Some(link.productKey), None, None, rounds[0].attempt, now);
      assert DisconnectsFirst(m, Some(link.deviceId), Some(link.productKey), None, None);
      var w: seq<nat> := [] + [Backoff(0)];
      if s.None? {
        assert m1.stopReconnect && m1.connected.None?;
        assert ReconnectFrom(m, link, rounds, 0, [], now, true) == ReconnectFrom(m1, link, rounds, 1, w, now, true);
        assert ReconnectFrom(m1, link, rounds, 1, w, now, true).waits == w;
      }
    }
  }

  /** Once a worker has returned, a new reconnect can start whenever a last
      device is known. */
  lemma WorkerAllowsRestart(m: Manager, rounds: seq<Round>, now: real, selfStop: bool)
    requires |rounds| == Rounds(m)
    ensures var r := ReconnectWorker(m, rounds, now, selfStop);
      AutoReconnect(r.manager).1 <==> r.manager.connected.Some?
  {
  }

  /** A reconnect whose attempts all failed can be requested again, and the
      new worker is started. */
  lemma RetryAfterFailedReconnect(m: Manager, rounds: seq<Round>, now: real)
    requires m.connected.Some? && !m.reconnecting && m.streamer.None?
    requires |rounds| == Rounds(m) && AllFail(rounds)
    ensures var (m1, started) := AutoReconnect(m);
      started && AutoReconnect(ReconnectWorker(m1, rounds, now, true).manager).1
  {
    var m1 := AutoReconnect(m).0;
    ReconnectExhaustedAsWritten(m1, rounds, now);
  }
}

=== FILE: events.dfy ===
/** The session's event log: manually annotated events with a timestamp, a
    description and one of four categories, kept in the order they were
    logged.  Events read back from an earlier session's file may lack fields,
    so every field of an event is optional; events this logger creates have
    them all. */
module Events {
  import opened Common

  /** The four categories an event may carry. */
  const Categories: set<string> := {"subjective", "stimulus", "response", "other"}

  /** The `description` argument: a string, or any other Python value. */
  datatype Description = Text(s: string) | NotText

  datatype Event = Event(
    timestamp: Option<real>,
    isoTime: Option<string>,
    description: Option<string>,
    category: Option<string>,
    sessionId: Option<string>)

  datatype EventLogger = EventLogger(sessionId: string, events: seq<Event>)

  /** The Python exceptions the logger raises. */
  datatype Error = TypeError | ValueError | KeyError

  /** Every field is present. */
  predicate Complete(e: Event) {
    e.timestamp.Some? && e.isoTime.Some? && e.description.Some?
    && e.category.Some? && e.sessionId.Some?
  }

  // ---------------------------------------------------------------------
  // Python's str.strip()

  /** Python's `str.isspace` for one character. */
  predicate IsSpace(ch: char) {
    ch == ' ' || ('\t' <= ch <= '\r') || ('\U{1c}' <= ch <= '\U{1f}')
    || ch == '\U{85}' || ch == '\U{a0}' || ch == '\U{1680}'
    || ('\U{2000}' <= ch <= '\U{200a}') || ch == '\U{2028}' || ch == '\U{2029}'
    || ch == '\U{202f}' || ch == '\U{205f}' || ch == '\U{3000}'
  }

  predicate AllSpace(s: string) {
    forall k :: 0 <= k < |s| ==> IsSpace(s[k])
  }

  function LeadingSpaces(s: string): (n: nat)
    ensures n <= |s|
    ensures forall k :: 0 <= k < n ==> IsSpace(s[k])
    ensures n < |s| ==> !IsSpace(s[n])
  {
    if s == [] || !IsSpace(s[0]) then 0 else 1 + LeadingSpaces(s[1..])
  }

  function TrailingSpaces(s: string): (n: nat)
    ensures n <= |s|
    ensures forall k :: |s| - n <= k < |s| ==> IsSpace(s[k])
    ensures n < |s| ==> !IsSpace(s[|s| - 1 - n])
  {
    if s == [] || !IsSpace(s[|s| - 1]) then 0 else 1 + TrailingSpaces(s[..|s| - 1])
  }

  /** `r` sits at offset `i` of `s` with only white space around it. */
  predicate StrippedAt(s: string, r: string, i: int) {
    0 <= i && i + |r| <= |s| && r == s[i..i + |r|]
    && (forall k :: 0 <= k < i ==> IsSpace(s[k]))
    && (forall k :: i + |r| <= k < |s| ==> IsSpace(s[k]))
  }

  /** Python's `s.strip()`: `s` without leading and trailing white space. */
  function Strip(s: string): (r: string)
    ensures r == [] <==> AllSpace(s)
    ensures r != [] ==> !IsSpace(r[0]) && !IsSpace(r[|r| - 1])
    ensures exists i :: StrippedAt(s, r, i)
  {
    var i := LeadingSpaces(s);
    var t := s[i..];
    var j := |s| - TrailingSpaces(t);
    assert j >= i;
    assert i < |s| ==> t[0] == s[i] && TrailingSpaces(t) < |t|;
    assert StrippedAt(s, s[i..j], i);
    s[i..j]
  }

  // ---------------------------------------------------------------------
  // Logging

  /** A logger for `sessionId` (or a generated id when that is empty or
      absent) holding the events read back from an earlier run. */
  function NewLogger(sessionId: Option<string>, generatedId: string, stored: seq<Event>): (r: EventLogger)
    ensures Truthy(sessionId) ==> r.sessionId == sessionId.value
    ensures !Truthy(sessionId) ==> r.sessionId == generatedId
    ensures r.events == stored
  {
    EventLogger(OrElse(sessionId, Some(generatedId)).value, stored)
  }

  /** Records an event at clock reading `now` (rendered as `iso`).  A
      description that is not a string is a TypeError; a blank description
      or an unknown category is a ValueError. */
  function LogEvent(lg: EventLogger, d: Description, category: string, now: real, iso: string)
    : (r: Result<(EventLogger, Event), Error>)
    ensures d.NotText? ==> r == Err(TypeError)
    ensures d.Text? ==> (r == Err(ValueError) <==> AllSpace(d.s) || category !in Categories)
    ensures r.Ok? <==> d.Text? && !AllSpace(d.s) && category in Categories
    ensures r.Ok? ==> var (lg', e) := r.value;
      && lg'.sessionId == lg.sessionId
      && lg'.events == lg.events + [e]
      && Complete(e)
      && e.timestamp == Some(now)
      && e.category == Some(category)
      && e.sessionId == Some(lg.sessionId)
      && e.description == Some(Strip(d.s))
      && e.description.value != []
  {
    if d.NotText? then Err(TypeError)
    else if Strip(d.s) == [] then Err(ValueError)
    else if category !in Categories then Err(ValueError)
    else
      var e := Event(Some(now), Some(iso), Some(Strip(d.s)), Some(category), Some(lg.sessionId));
      Ok((lg.(events := lg.events + [e]), e))
  }

  // ---------------------------------------------------------------------
  // Queries

  predicate Stamped(evs: seq<Event>) {
    forall i :: 0 <= i < |evs| ==> evs[i].timestamp.Some?
  }

  predicate Categorised(evs: seq<Event>) {
    forall i :: 0 <= i < |evs| ==> evs[i].category.Some?
  }

  predicate AfterStart(e: Event, start: Option<real>) {
    start.None? || (e.timestamp.Some? && e.timestamp.value >= start.value)
  }

  predicate BeforeEnd(e: Event, end: Option<real>) {
    end.None? || (e.timestamp.Some? && e.timestamp.value <= end.value)
  }

  predicate InCategory(e: Event, category: Option<string>) {
    category.None? || e.category == category
  }

  /** An event passes all three filters of a query. */
  predicate Selected(e: Event, start: Option<real>, end: Option<real>, category: Option<string>) {
    AfterStart(e, start) && BeforeEnd(e, end) && InCategory(e, category)
  }

  /** The events whose timestamp lies in the inclusive range and whose
      category matches, each filter applied in turn to what the previous one
      kept.  Reading a field an event lacks is a KeyError; an unknown category
      is a ValueError, raised once the time filters have passed. */
  function GetEvents(lg: EventLogger, start: Option<real>, end: Option<real>, category: Option<string>)
    : (r: Result<seq<Event>, Error>)
    ensures r.Ok? ==> r.value == Filter(lg.events, e => Selected(e, start, end, category))
    ensures r.Ok? ==> Subsequence(r.value, lg.events)
    ensures r.Ok? ==> category.None? || category.value in Categories
    ensures (start.None? && end.None?) || Stamped(lg.events) ==>
      (category.Some? && category.value !in Categories ==> r == Err(ValueError))
    ensures (forall i :: 0 <= i < |lg.events| ==> Complete(lg.events[i])) ==>
      (r.Ok? <==> category.None? || category.value in Categories)
  {
    var evs := lg.events;
    if start.Some? && !Stamped(evs) then Err(KeyError)
    else
      var a := Filter(evs, e => AfterStart(e, start));
      if end.Some? && !Stamped(a) then Err(KeyError)
      else
        var b := Filter(a, e => BeforeEnd(e, end));
        if category.Some? && category.value !in Categories then Err(ValueError)
        else if category.Some? && !Categorised(b) then Err(KeyError)
        else
          var c := Filter(b, e => InCategory(e, category));
          FilterFilter(evs, e => AfterStart(e, start), e => BeforeEnd(e, end),
            e => AfterStart(e, start) && BeforeEnd(e, end));
          FilterFilter(evs, e => AfterStart(e, start) && BeforeEnd(e, end),
            e => InCategory(e, category), e => Selected(e, start, end, category));
          Ok(c)
  }

  /** Python's normalised start index of the slice `xs[-count:]` on a list
      of length `n`. */
  function SliceFrom(n: nat, count: int): (k: nat)
    ensures k <= n
    ensures count > 0 ==> n - k == Min(count, n)
    ensures count <= 0 ==> k == Min(-count, n)
  {
    if -count < 0 then (if n - count < 0 then 0 else n - count)
    else Min(-count, n)
  }

  /** `get_recent_events` as written: the slice `events[-count:]`, which for
      `count <= 0` drops `-count` events from the front rather than returning
      nothing. */
  function RecentEventsAsWritten(lg: EventLogger, count: int): (r: seq<Event>)
    ensures |r| <= |lg.events|
    ensures r == lg.events[|lg.events| - |r|..]
    ensures count > 0 ==> |r| == Min(count, |lg.events|)
    ensures count <= 0 ==> |r| == |lg.events| - Min(-count, |lg.events|)
  {
    if lg.events == [] then [] else lg.events[SliceFrom(|lg.events|, count)..]
  }

  /** Asking for the zero most recent events returns every event. */
  lemma RecentZeroReturnsEverything(lg: EventLogger)
    ensures RecentEventsAsWritten(lg, 0) == lg.events
  {
  }

  /** A concrete instance: one logged event, asked for zero of the most
      recent, comes back. */
  lemma RecentZeroCounterexample()
    ensures var e := Event(Some(1.0), Some("t"), Some("blink"), Some("other"), Some("s"));
      RecentEventsAsWritten(EventLogger("s", [e]), 0) == [e]
  {
  }

  /** The most recent `count` events, none when `count` is not positive. */
  function RecentEvents(lg: EventLogger, count: int): (r: seq<Event>)
    ensures |r| == if count <= 0 then 0 else Min(count, |lg.events|)
    ensures r == lg.events[|lg.events| - |r|..]
  {
    if count <= 0 then [] else lg.events[|lg.events| - Min(count, |lg.events|)..]
  }

  /** For a positive count both readings agree. */
  lemma RecentEventsAgree(lg: EventLogger, count: int)
    requires count > 0
    ensures RecentEvents(lg, count) == RecentEventsAsWritten(lg, count)
  {
  }

  /** Empties the log when `confirm` is set; reports whether it did. */
  function ClearEvents(lg: EventLogger, confirm: bool): (r: (EventLogger, bool))
    ensures r.1 == confirm
    ensures r.0.sessionId == lg.sessionId
    ensures confirm ==> r.0.events == []
    ensures !confirm ==> r.0 == lg
  {
    if !confirm then (lg, false) else (lg.(events := []), true)
  }

  /** Number of events carrying category `c`: as many as the log filtered
      by that category holds.  (A KeyError in the source for an event
      without a category, which `SessionInfo` rules out first.) */
  function CountCategory(evs: seq<Event>, c: string): (n: nat)
    ensures n <= |evs|
    ensures n == |Filter(evs, e => HasCategory(c, e))|
  {
    if evs == [] then 0
    else (if evs[0].category == Some(c) then 1 else 0) + CountCategory(evs[1..], c)
  }

  predicate HasCategory(c: string, e: Event) {
    e.category == Some(c)
  }

  datatype Info = Info(
    sessionId: string,
    totalEvents: nat,
    firstEventTime: Option<real>,
    lastEventTime: Option<real>,
    eventDuration: real,
    categoryCounts: map<string, nat>)

  /** The log's statistics: the number of events, the first and last event
      times and the span between them, and one count per category.  An event
      lacking the field a statistic reads is a KeyError. */
  function SessionInfo(lg: EventLogger): (r: Result<Info, Error>)
    ensures r.Ok? <==>
      (lg.events == []
       || (lg.events[0].timestamp.Some? && lg.events[|lg.events| - 1].timestamp.Some?
           && Categorised(lg.events)))
    ensures r.Ok? ==> var info := r.value;
      && info.sessionId == lg.sessionId
      && info.totalEvents == |lg.events|
      && info.categoryCounts.Keys == Categories
      && (forall c :: c in Categories ==> info.categoryCounts[c] == CountCategory(lg.events, c))
      && (lg.events == [] ==> info.firstEventTime.None? && info.lastEventTime.None? && info.eventDuration == 0.0)
      && (lg.events != [] ==>
            info.firstEventTime == lg.events[0].timestamp
            && info.lastEventTime == lg.events[|lg.events| - 1].timestamp
            && info.eventDuration == info.lastEventTime.value - info.firstEventTime.value)
  {
    var evs := lg.events;
    var counts := map c | c in Categories :: CountCategory(evs, c);
    if evs == [] then Ok(Info(lg.sessionId, 0, None, None, 0.0, counts))
    else if evs[0].timestamp.None? || evs[|evs| - 1].timestamp.None? then Err(KeyError)
    else if !Categorised(evs) then Err(KeyError)
    else
      var first := evs[0].timestamp.value;
      var last := evs[|evs| - 1].timestamp.value;
      Ok(Info(lg.sessionId, |evs|, Some(first), Some(last), last - first, counts))
  }

  /** When every event carries one of the four categories, the category
      counts add up to the number of events. */
  lemma {:induction false} CountsPartition(evs: seq<Event>)
    requires forall i :: 0 <= i < |evs| ==> evs[i].category.Some? && evs[i].category.value in Categories
    ensures CountCategory(evs, "subjective") + CountCategory(evs, "stimulus")
      + CountCategory(evs, "response") + CountCategory(evs, "other") == |evs|
  {
    if evs != [] {
      CountsPartition(evs[1..]);
      assert evs[0].category.value in Categories;
    }
  }

  // ---------------------------------------------------------------------
  // Integrity

  const RequiredFields: set<string> := {"timestamp", "iso_time", "description", "category", "session_id"}

  /** Names of the fields `e` lacks. */
  function Missing(e: Event): (m: set<string>)
    ensures m <= RequiredFields
    ensures m == {} <==> Complete(e)
  {
    (if e.timestamp.None? then {"timestamp"} else {})
    + (if e.isoTime.None? then {"iso_time"} else {})
    + (if e.description.None? then {"description"} else {})
    + (if e.category.None? then {"category"} else {})
    + (if e.sessionId.None? then {"session_id"} else {})
  }

  datatype Issue =
    | MissingFields(index: nat, fields: set<string>)
    | InvalidCategory(index: nat, category: string)
    | NotChronological

  datatype Report = Report(isValid: bool, eventCount: nat, issues: seq<Issue>)

  /** A present category is one of the four. */
  predicate CategoryOk(e: Event) {
    e.category.None? || e.category.value in Categories
  }

  function EventIssues(e: Event, i: nat): (r: seq<Issue>)
    ensures r == [] <==> Complete(e) && CategoryOk(e)
  {
    (if Missing(e) != {} then [MissingFields(i, Missing(e))] else [])
    + (if !CategoryOk(e) then [InvalidCategory(i, e.category.value)] else [])
  }

  function IssuesFrom(evs: seq<Event>, i: nat): (r: seq<Issue>)
    requires i <= |evs|
    decreases |evs| - i
  {
    if i == |evs| then [] else EventIssues(evs[i], i) + IssuesFrom(evs, i + 1)
  }

  lemma {:induction false} IssuesFromEmpty(evs: seq<Event>, i: nat)
    requires i <= |evs|
    ensures IssuesFrom(evs, i) == [] <==>
      forall k :: i <= k < |evs| ==> Complete(evs[k]) && CategoryOk(evs[k])
    decreases |evs| - i
  {
    if i < |evs| {
      IssuesFromEmpty(evs, i + 1);
    }
  }

  /** The timestamps present, in log order. */
  function Stamps(evs: seq<Event>): (r: seq<real>)
    ensures |r| <= |evs|
  {
    if evs == [] then []
    else (if evs[0].timestamp.Some? then [evs[0].timestamp.value] else []) + Stamps(evs[1..])
  }

  lemma {:induction false} StampsOfStamped(evs: seq<Event>)
    requires Stamped(evs)
    ensures |Stamps(evs)| == |evs|
    ensures forall i :: 0 <= i < |evs| ==> Stamps(evs)[i] == evs[i].timestamp.value
  {
    if evs != [] {
      StampsOfStamped(evs[1..]);
    }
  }

  /** Non-decreasing, which is when a list equals its sorted copy. */
  predicate Sorted(xs: seq<real>) {
    forall i, j :: 0 <= i < j < |xs| ==> xs[i] <= xs[j]
  }

  /** Checks every event for missing fields and unknown categories, then the
      present timestamps for chronological order. */
  function ValidateIntegrity(lg: EventLogger): (r: Report)
    ensures r.eventCount == |lg.events|
    ensures r.isValid <==> r.issues == []
    ensures NotChronological in r.issues <==> !Sorted(Stamps(lg.events))
  {
    var issues := IssuesFrom(lg.events, 0);
    assert NotChronological !in issues by { NoOrderIssue(lg.events, 0); }
    var all := issues + (if Sorted(Stamps(lg.events)) then [] else [NotChronological]);
    Report(all == [], |lg.events|, all)
  }

  lemma {:induction false} NoOrderIssue(evs: seq<Event>, i: nat)
    requires i <= |evs|
    ensures NotChronological !in IssuesFrom(evs, i)
    decreases |evs| - i
  {
    if i < |evs| {
      NoOrderIssue(evs, i + 1);
    }
  }

  /** A log passes the integrity check exactly when every event has every
      field and one of the four categories, and the timestamps never go
      backwards. */
  lemma IntegrityIff(lg: EventLogger)
    ensures ValidateIntegrity(lg).isValid <==>
      (forall i :: 0 <= i < |lg.events| ==>
         Complete(lg.events[i]) && lg.events[i].category.value in Categories)
      && (forall i, j :: 0 <= i < j < |lg.events| ==>
            lg.events[i].timestamp.value <= lg.events[j].timestamp.value)
  {
    var evs := lg.events;
    IssuesFromEmpty(evs, 0);
    if forall i :: 0 <= i < |evs| ==> Complete(evs[i]) {
      StampsOfStamped(evs);
    }
  }

  /** Logging with a clock that has not gone backwards keeps a valid log
      valid. */
  lemma LogKeepsIntegrity(lg: EventLogger, d: Description, category: string, now: real, iso: string)
    requires ValidateIntegrity(lg).isValid
    requires LogEvent(lg, d, category, now, iso).Ok?
    requires forall i :: 0 <= i < |lg.events| ==> BeforeEnd(lg.events[i], Some(now))
    ensures ValidateIntegrity(LogEvent(lg, d, category, now, iso).value.0).isValid
  {
    IntegrityIff(lg);
    var lg' := LogEvent(lg, d, category, now, iso).value.0;
    IntegrityIff(lg');
  }

  /** A valid log yields its statistics, with a non-negative span and
      category counts that add up to the number of events. */
  lemma ValidLogInfo(lg: EventLogger)
    requires ValidateIntegrity(lg).isValid
    ensures SessionInfo(lg).Ok?
    ensures SessionInfo(lg).value.eventDuration >= 0.0
    ensures var counts := SessionInfo(lg).value.categoryCounts;
      counts["subjective"] + counts["stimulus"] + counts["response"] + counts["other"]
        == |lg.events|
  {
    IntegrityIff(lg);
    CountsPartition(lg.events);
    if lg.events != [] && |lg.events| > 1 {
      assert lg.events[0].timestamp.value <= lg.events[|lg.events| - 1].timestamp.value;
    }
  }

  /** Clearing a confirmed log leaves a valid, empty log. */
  lemma ClearedIsValid(lg: EventLogger)
    ensures ValidateIntegrity(ClearEvents(lg, true).0).isValid
    ensures ValidateIntegrity(ClearEvents(lg, true).0).eventCount == 0
  {
    IntegrityIff(ClearEvents(lg, true).0);
  }
}

=== FILE: registry.dfy ===
/** The fixed dataset registry of the storage engine: every channel the store
    knows, its per-sample width (0 for a scalar channel), element type and
    chunk length, in the order the registry lists them. */
module Registry {
  import opened Common

  datatype Channel =
    | RawEeg | RawImu | RawPpg
    | FilteredEeg
    | ScoresPoas | ScoresFocus | ScoresPosture | ScoresSleepStage
    | ScoresSignalQuality | ScoresHr | ScoresSpo2
    | BandAlpha | BandBeta | BandGamma | BandTheta | BandDelta
    | Timestamps

  datatype Dtype = Float32 | Float64 | Int8 | Int16

  /** One registry entry: per-sample width (0 = scalar), element type, and
      the number of rows in one on-disk chunk. */
  datatype Descriptor = Descriptor(width: nat, dtype: Dtype, chunkRows: nat)

  /** Number of registered channels, and of those that are not `timestamps`. */
  const ChannelCount: nat := 17
  const DataChannelCount: nat := 16

  /** The hierarchical dataset name of a channel. */
  function Name(c: Channel): string {
    match c
    case RawEeg => "raw/eeg"
    case RawImu => "raw/imu"
    case RawPpg => "raw/ppg"
    case FilteredEeg => "filtered/eeg"
    case ScoresPoas => "scores/poas"
    case ScoresFocus => "scores/focus"
    case ScoresPosture => "scores/posture"
    case ScoresSleepStage => "scores/sleep_stage"
    case ScoresSignalQuality => "scores/signal_quality"
    case ScoresHr => "scores/hr"
    case ScoresSpo2 => "scores/spo2"
    case BandAlpha => "power_bands/alpha"
    case BandBeta => "power_bands/beta"
    case BandGamma => "power_bands/gamma"
    case BandTheta => "power_bands/theta"
    case BandDelta => "power_bands/delta"
    case Timestamps => "timestamps"
  }

  function Describe(c: Channel): Descriptor {
    match c
    case RawEeg => Descriptor(7, Float32, 10000)
    case RawImu => Descriptor(3, Float32, 10000)
    case RawPpg => Descriptor(3, Float32, 10000)
    case FilteredEeg => Descriptor(7, Float32, 10000)
    case ScoresPoas => Descriptor(0, Float32, 10000)
    case ScoresFocus => Descriptor(0, Float32, 10000)
    case ScoresPosture => Descriptor(0, Int8, 10000)
    case ScoresSleepStage => Descriptor(0, Int8, 10000)
    case ScoresSignalQuality => Descriptor(4, Float32, 10000)
    case ScoresHr => Descriptor(0, Int16, 10000)
    case ScoresSpo2 => Descriptor(0, Int16, 10000)
    case BandAlpha => Descriptor(5, Float32, 10000)
    case BandBeta => Descriptor(5, Float32, 10000)
    case BandGamma => Descriptor(5, Float32, 10000)
    case BandTheta => Descriptor(5, Float32, 10000)
    case BandDelta => Descriptor(5, Float32, 10000)
    case Timestamps => Descriptor(0, Float64, 10000)
  }

  function Width(c: Channel): nat {
    Describe(c).width
  }

  /** Position of a channel in the registry. */
  function Index(c: Channel): (i: nat)
    ensures i < ChannelCount
    ensures (i == DataChannelCount) <==> c == Timestamps
  {
    match c
    case RawEeg => 0
    case RawImu => 1
    case RawPpg => 2
    case FilteredEeg => 3
    case ScoresPoas => 4
    case ScoresFocus => 5
    case ScoresPosture => 6
    case ScoresSleepStage => 7
    case ScoresSignalQuality => 8
    case ScoresHr => 9
    case ScoresSpo2 => 10
    case BandAlpha => 11
    case BandBeta => 12
    case BandGamma => 13
    case BandTheta => 14
    case BandDelta => 15
    case Timestamps => 16
  }

  /** The channel at a registry position; the inverse of `Index`. */
  function ChannelAt(i: nat): (c: Channel)
    requires i < ChannelCount
    ensures Index(c) == i
  {
    if i == 0 then RawEeg
    else if i == 1 then RawImu
    else if i == 2 then RawPpg
    else if i == 3 then FilteredEeg
    else if i == 4 then ScoresPoas
    else if i == 5 then ScoresFocus
    else if i == 6 then ScoresPosture
    else if i == 7 then ScoresSleepStage
    else if i == 8 then ScoresSignalQuality
    else if i == 9 then ScoresHr
    else if i == 10 then ScoresSpo2
    else if i == 11 then BandAlpha
    else if i == 12 then BandBeta
    else if i == 13 then BandGamma
    else if i == 14 then BandTheta
    else if i == 15 then BandDelta
    else Timestamps
  }

  /** `Index` is injective: each registry position holds exactly one channel. */
  lemma IndexInjective(c: Channel, d: Channel)
    ensures Index(c) == Index(d) ==> c == d
  {
    if Index(c) == Index(d) {
      assert ChannelAt(Index(c)) == c by { ChannelAtIndex(c); }
      ChannelAtIndex(d);
    }
  }

  lemma ChannelAtIndex(c: Channel)
    ensures ChannelAt(Index(c)) == c
  {
  }

  /** Looks a dataset name up in the registry (`name in _dataset_configs`). */
  function Parse(name: string): (r: Option<Channel>)
    ensures r.Some? ==> Name(r.value) == name
  {
    if name == "raw/eeg" then Some(RawEeg)
    else if name == "raw/imu" then Some(RawImu)
    else if name == "raw/ppg" then Some(RawPpg)
    else if name == "filtered/eeg" then Some(FilteredEeg)
    else if name == "scores/poas" then Some(ScoresPoas)
    else if name == "scores/focus" then Some(ScoresFocus)
    else if name == "scores/posture" then Some(ScoresPosture)
    else if name == "scores/sleep_stage" then Some(ScoresSleepStage)
    else if name == "scores/signal_quality" then Some(ScoresSignalQuality)
    else if name == "scores/hr" then Some(ScoresHr)
    else if name == "scores/spo2" then Some(ScoresSpo2)
    else if name == "power_bands/alpha" then Some(BandAlpha)
    else if name == "power_bands/beta" then Some(BandBeta)
    else if name == "power_bands/gamma" then Some(BandGamma)
    else if name == "power_bands/theta" then Some(BandTheta)
    else if name == "power_bands/delta" then Some(BandDelta)
    else if name == "timestamps" then Some(Timestamps)
    else None
  }

  /** Every registered name is found again, so the registry lookup and the
      name table agree in both directions. */
  lemma ParseName(c: Channel)
    ensures Parse(Name(c)) == Some(c)
  {
  }

  /** The HDF5 shape a dataset is created with: zero rows, then the sample width. */
  function CreateShape(c: Channel): (s: seq<nat>)
    ensures |s| >= 1 && s[0] == 0
  {
    if Width(c) == 0 then [0] else [0, Width(c)]
  }

  /** `maxshape` of a dataset: unlimited along the first axis, the creation
      shape along every other axis. */
  function MaxShape(c: Channel): (m: seq<Option<nat>>)
    ensures |m| == |CreateShape(c)|
    ensures m[0] == None
    ensures forall k :: 1 <= k < |m| ==> m[k] == Some(CreateShape(c)[k])
  {
    var shape := CreateShape(c);
    if |shape| > 1 then [None] + seq(|shape| - 1, k requires 0 <= k < |shape| - 1 => Some(shape[k + 1]))
    else [None]
  }

  /** Chunk layout: `chunkRows` rows of the sample width. */
  function Chunks(c: Channel): (k: seq<nat>)
    ensures |k| == |CreateShape(c)|
    ensures k[0] == Describe(c).chunkRows
    ensures |k| == 2 ==> k[1] == Width(c)
  {
    if Width(c) == 0 then [Describe(c).chunkRows] else [Describe(c).chunkRows, Width(c)]
  }
}

=== FILE: storage.dfy ===
/** The buffered time-series store: per-channel pending buffers in memory, an
    append-only on-disk dataset per channel, and the rules that move samples
    from one to the other (size-triggered flush, auto-save, stop, finalize).
    Every lock-protected block of the original is one atomic transition here. */
module Storage {
  import opened Common
  import opened Registry

  /** A sample as handed to `append_data`: a number, a one-dimensional array,
      or something numpy cannot convert to the channel's element type. */
  datatype Value = Scalar(x: real) | Vector(xs: seq<real>) | Unconvertible

  /** numpy shape of a convertible value. */
  function Shape(v: Value): seq<nat>
    requires !v.Unconvertible?
  {
    match v
    case Scalar(_) => []
    case Vector(xs) => [|xs|]
  }

  /** The constructor arguments of the store that influence its behaviour. */
  datatype Settings = Settings(bufferMinutes: int, autoSaveInterval: int,
                               compression: string, compressionLevel: int)

  const DefaultSettings := Settings(5, 300, "gzip", 4)

  datatype Store = Store(
    settings: Settings,
    sessionId: Option<string>,
    startTime: Option<real>,
    recording: bool,
    stopAutoSave: bool,
    /** `_data_buffers`: pending samples per channel (timestamps included). */
    buffers: map<Channel, seq<Value>>,
    /** `_timestamp_buffers`: pending arrival times per non-timestamp channel. */
    pendingTimes: map<Channel, seq<real>>,
    /** The open HDF5 file, as the contents of each dataset it holds. */
    file: Option<map<Channel, seq<Value>>>,
    lastSave: real)

  /** Length of a channel's sequence in a map, 0 when the channel is absent. */
  function Len<T>(m: map<Channel, seq<T>>, c: Channel): nat {
    if c in m then |m[c]| else 0
  }

  /** Sum of `Len(m, c)` over the first `n` registry channels. */
  function Count<T>(n: nat, m: map<Channel, seq<T>>): nat
    requires n <= ChannelCount
  {
    if n == 0 then 0 else Count(n - 1, m) + Len(m, ChannelAt(n - 1))
  }

  /** Samples waiting in the buffers, `timestamps` excluded. */
  function Buffered(s: Store): nat {
    Count(DataChannelCount, s.buffers)
  }

  /** Samples already written to the file, `timestamps` excluded. */
  function Saved(s: Store): nat {
    if s.file.Some? then Count(DataChannelCount, s.file.value) else 0
  }

  /** Everything pending, `timestamps` included (what `flush_buffer` counts). */
  function Pending(s: Store): nat {
    Count(ChannelCount, s.buffers)
  }

  /** Samples of one channel, written or pending. */
  function ChannelTotal(s: Store, c: Channel): nat {
    (if s.file.Some? then Len(s.file.value, c) else 0) + Len(s.buffers, c)
  }

  /** The buffers as `_initialize_buffers` leaves them. */
  function EmptyBuffers(): (m: map<Channel, seq<Value>>)
    ensures forall c :: c in m && m[c] == []
  {
    var m := map i | 0 <= i < ChannelCount :: ChannelAt(i) := [];
    assert forall c :: c in m by {
      forall c ensures c in m {
        assert ChannelAt(Index(c)) == c by { ChannelAtIndex(c); }
      }
    }
    m
  }

  function EmptyTimes(): (m: map<Channel, seq<real>>)
    ensures forall c :: c in m <==> c != Timestamps
    ensures forall c :: c in m ==> m[c] == []
  {
    var m := map i | 0 <= i < DataChannelCount :: ChannelAt(i) := [];
    assert forall c :: c in m <==> c != Timestamps by {
      forall c ensures c in m <==> c != Timestamps {
        ChannelAtIndex(c);
      }
    }
    m
  }

  /** The invariant every reachable store satisfies: buffers exist for every
      channel, per-channel arrival times match the per-channel samples one for
      one, every buffered sample has its shared timestamp, and a recording
      store has an open file with every dataset created. */
  predicate Wf(s: Store) {
    && (forall c :: c in s.buffers)
    && (forall c :: c in s.pendingTimes <==> c != Timestamps)
    && (forall c :: c in s.pendingTimes ==> |s.pendingTimes[c]| == |s.buffers[c]|)
    && Buffered(s) <= |s.buffers[Timestamps]|
    && (s.recording ==> s.file.Some? && forall c :: c in s.file.value)
  }

  /** The state right after `DataStorage.__init__`. */
  function Initial(settings: Settings): (s: Store)
    ensures Wf(s)
    ensures !s.recording && s.file.None? && s.lastSave == 0.0
    ensures Pending(s) == 0
  {
    var s := Store(settings, None, None, false, false, EmptyBuffers(), EmptyTimes(), None, 0.0);
    CountAllEmpty(ChannelCount, s.buffers);
    CountAllEmpty(DataChannelCount, s.buffers);
    s
  }

  lemma CountAllEmpty<T>(n: nat, m: map<Channel, seq<T>>)
    requires n <= ChannelCount
    requires forall c :: c in m ==> m[c] == []
    ensures Count(n, m) == 0
  {
    if n > 0 {
      CountAllEmpty(n - 1, m);
    }
  }

  /** `Count` is zero exactly when every counted channel is empty. */
  lemma {:induction false} CountZero<T>(n: nat, m: map<Channel, seq<T>>)
    requires n <= ChannelCount
    ensures Count(n, m) == 0 <==> forall i :: 0 <= i < n ==> Len(m, ChannelAt(i)) == 0
  {
    if n > 0 {
      CountZero(n - 1, m);
    }
  }

  /** A store whose buffers were just cleared is well formed as soon as a
      recording store has all of its datasets. */
  lemma ClearedWf(s: Store)
    requires s.buffers == EmptyBuffers() && s.pendingTimes == EmptyTimes()
    requires s.recording ==> s.file.Some? && forall c :: c in s.file.value
    ensures Wf(s) && Pending(s) == 0 && Buffered(s) == 0
  {
    CountAllEmpty(ChannelCount, s.buffers);
    CountAllEmpty(DataChannelCount, s.buffers);
  }

  /** Replacing one channel's sequence changes `Count` by the difference in
      length when the channel is counted, and not at all otherwise. */
  lemma {:induction false} CountUpdate<T>(n: nat, m: map<Channel, seq<T>>, k: Channel, v: seq<T>)
    requires n <= ChannelCount
    ensures Index(k) < n ==> Count(n, m[k := v]) + Len(m, k) == Count(n, m) + |v|
    ensures Index(k) >= n ==> Count(n, m[k := v]) == Count(n, m)
  {
    if n > 0 {
      CountUpdate(n - 1, m, k, v);
      var c := ChannelAt(n - 1);
      if c != k {
        assert Len(m[k := v], c) == Len(m, c);
      } else {
        assert Index(k) == n - 1;
      }
    }
  }

  // ---------------------------------------------------------------------------
  // Datasets

  /** `create_datasets` on an open file: every registry channel that has no
      dataset yet gets an empty one; existing datasets are left untouched. */
  function CreateDatasets(f: map<Channel, seq<Value>>): (r: map<Channel, seq<Value>>)
    ensures forall c :: c in r
    ensures forall c :: c in f ==> r[c] == f[c]
    ensures forall c :: c !in f ==> r[c] == []
  {
    var r := map i | 0 <= i < ChannelCount :: ChannelAt(i) := if ChannelAt(i) in f then f[ChannelAt(i)] else [];
    assert forall c :: c in r && r[c] == (if c in f then f[c] else []) by {
      forall c ensures c in r && r[c] == (if c in f then f[c] else []) {
        ChannelAtIndex(c);
      }
    }
    r
  }

  /** `initialize_session`. The file is opened in "w" mode, which truncates
      any previous file of the same session, so datasets are created in an
      empty file. `fileOpens` is false when creating the directory or the file
      raises; then only the session id and start time have been set. */
  function InitializeSession(s: Store, id: Option<string>, generatedId: string,
                             now: real, fileOpens: bool): (r: (Store, bool))
    requires Wf(s)
    ensures Wf(r.0)
    ensures r.0.sessionId == Some(id.GetOr(generatedId)) && r.0.startTime == Some(now)
    ensures r.1 == fileOpens
    ensures r.1 ==> r.0.recording && !r.0.stopAutoSave && Pending(r.0) == 0
    ensures r.1 ==> r.0.file.Some? && forall c :: c in r.0.file.value && r.0.file.value[c] == []
    ensures !r.1 ==> r.0 == s.(sessionId := r.0.sessionId, startTime := r.0.startTime)
  {
    var s1 := s.(sessionId := Some(id.GetOr(generatedId)), startTime := Some(now));
    if !fileOpens then
      (s1, false)
    else
      var f := CreateDatasets(map[]);
      var s2 := s1.(file := Some(f), buffers := EmptyBuffers(), pendingTimes := EmptyTimes(),
                    stopAutoSave := false, recording := true);
      ClearedWf(s2);
      (s2, true)
  }

  // ---------------------------------------------------------------------------
  // Appending

  /** Whether a convertible value passes the shape check of `append_data`:
      scalar channels skip the check, vector channels need shape `(width,)`. */
  predicate ShapeOk(c: Channel, v: Value)
    requires !v.Unconvertible?
  {
    Width(c) == 0 || Shape(v) == [Width(c)]
  }

  /** Why `append_data` refuses a sample. */
  datatype Rejection = NotRecording | UnknownChannel | BadValue | ShapeMismatch

  /** The validation part of `append_data`, in the order the source checks. */
  function Validate(s: Store, name: string, v: Value): (r: Option<Rejection>)
    ensures r == None <==> s.recording && Parse(name).Some? && !v.Unconvertible? && ShapeOk(Parse(name).value, v)
    ensures !s.recording ==> r == Some(NotRecording)
    ensures s.recording && Parse(name).None? ==> r == Some(UnknownChannel)
  {
    if !s.recording then Some(NotRecording)
    else if Parse(name).None? then Some(UnknownChannel)
    else if v.Unconvertible? then Some(BadValue)
    else if !ShapeOk(Parse(name).value, v) then Some(ShapeMismatch)
    else None
  }

  /** The locked block of `append_data`: the sample goes to its channel and,
      unless the channel is `timestamps` itself, its time goes both to the
      channel's arrival times and to the shared `timestamps` buffer. */
  function Push(s: Store, c: Channel, v: Value, t: real): (r: Store)
    requires Wf(s)
    ensures Wf(r)
    ensures r.buffers[c] == s.buffers[c] + [v]
    ensures c != Timestamps ==> r.buffers[Timestamps] == s.buffers[Timestamps] + [Scalar(t)]
    ensures c != Timestamps ==> r.pendingTimes[c] == s.pendingTimes[c] + [t]
    ensures forall d :: d != c && d != Timestamps ==> r.buffers[d] == s.buffers[d]
    ensures forall d :: d != c && d in s.pendingTimes ==> r.pendingTimes[d] == s.pendingTimes[d]
    ensures r.pendingTimes.Keys == s.pendingTimes.Keys
    ensures r == s.(buffers := r.buffers, pendingTimes := r.pendingTimes)
    ensures c != Timestamps ==> Buffered(r) == Buffered(s) + 1
    ensures c == Timestamps ==> Buffered(r) == Buffered(s)
    ensures Pending(r) == Pending(s) + (if c == Timestamps then 1 else 2)
  {
    if c == Timestamps then PushStamp(s, v) else PushData(s, c, v, t)
  }

  /** A sample appended to `timestamps` directly. */
  function PushStamp(s: Store, v: Value): (r: Store)
    requires Wf(s)
    ensures Wf(r)
    ensures r.buffers[Timestamps] == s.buffers[Timestamps] + [v]
    ensures forall d :: d != Timestamps ==> r.buffers[d] == s.buffers[d]
    ensures r == s.(buffers := r.buffers)
    ensures Buffered(r) == Buffered(s)
    ensures Pending(r) == Pending(s) + 1
  {
    var b := s.buffers[Timestamps := s.buffers[Timestamps] + [v]];
    CountUpdate(DataChannelCount, s.buffers, Timestamps, b[Timestamps]);
    CountUpdate(ChannelCount, s.buffers, Timestamps, b[Timestamps]);
    s.(buffers := b)
  }

  /** A sample appended to a data channel, with its shared timestamp. */
  function PushData(s: Store, c: Channel, v: Value, t: real): (r: Store)
    requires Wf(s) && c != Timestamps
    ensures Wf(r)
    ensures r.buffers[c] == s.buffers[c] + [v]
    ensures r.buffers[Timestamps] == s.buffers[Timestamps] + [Scalar(t)]
    ensures r.pendingTimes[c] == s.pendingTimes[c] + [t]
    ensures forall d :: d != c && d != Timestamps ==> r.buffers[d] == s.buffers[d]
    ensures forall d :: d != c && d in s.pendingTimes ==> r.pendingTimes[d] == s.pendingTimes[d]
    ensures r.pendingTimes.Keys == s.pendingTimes.Keys
    ensures r == s.(buffers := r.buffers, pendingTimes := r.pendingTimes)
    ensures Buffered(r) == Buffered(s) + 1
    ensures Pending(r) == Pending(s) + 2
  {
    var b1 := s.buffers[c := s.buffers[c] + [v]];
    var b := b1[Timestamps := s.buffers[Timestamps] + [Scalar(t)]];
    CountUpdate(DataChannelCount, s.buffers, c, b1[c]);
    CountUpdate(DataChannelCount, b1, Timestamps, b[Timestamps]);
    CountUpdate(ChannelCount, s.buffers, c, b1[c]);
    CountUpdate(ChannelCount, b1, Timestamps, b[Timestamps]);
    s.(buffers := b, pendingTimes := s.pendingTimes[c := s.pendingTimes[c] + [t]])
  }


  /** A buffered timestamp as a number.  A vector pushed into `timestamps`
      directly gives no flush: the span becomes an array, whose truth test
      raises when it has several elements and whose `.1f` formatting in the
      log message raises when it has one; the caller swallows either. */
  function StampOf(v: Value): Option<real> {
    if v.Scalar? then Some(v.x) else None
  }

  /** `_check_buffer_size`: with at least two buffered timestamps, a flush is
      due when the span from the FIRST to the LAST buffered timestamp, in
      minutes, reaches `buffer_size_minutes`. Head and tail are used, not the
      minimum and maximum. */
  predicate FlushDue(s: Store)
    requires Wf(s)
  {
    var ts := s.buffers[Timestamps];
    && |ts| >= 2
    && StampOf(ts[0]).Some? && StampOf(ts[|ts| - 1]).Some?
    && (StampOf(ts[|ts| - 1]).value - StampOf(ts[0]).value) / 60.0 >= s.settings.bufferMinutes as real
  }

  function CheckBufferSize(s: Store, now: real): (r: Store)
    requires Wf(s)
    ensures Wf(r)
    ensures |s.buffers[Timestamps]| < 2 ==> r == s
    ensures !FlushDue(s) ==> r == s
    ensures FlushDue(s) ==> r == Flush(s, now).0
  {
    if FlushDue(s) then Flush(s, now).0 else s
  }

  /** `append_data(name, v, timestamp)`; `now` is the clock, used when no
      timestamp is given and for a flush the append may trigger. */
  function AppendData(s: Store, name: string, v: Value, timestamp: Option<real>, now: real): (r: (Store, bool))
    requires Wf(s)
    ensures Wf(r.0)
    ensures r.1 <==> Validate(s, name, v) == None
    ensures !r.1 ==> r.0 == s
    ensures r.1 ==> r.0 == CheckBufferSize(Push(s, Parse(name).value, v, timestamp.GetOr(now)), now)
  {
    match Validate(s, name, v)
    case Some(_) => (s, false)
    case None =>
      var c := Parse(name).value;
      (CheckBufferSize(Push(s, c, v, timestamp.GetOr(now)), now), true)
  }

  // ---------------------------------------------------------------------------
  // Flushing

  /** Writes the buffers of channels `i..` into the file in registry order:
      each non-empty buffer extends its dataset. A channel with data but no
      dataset raises; the channels written before it stay written. */
  function Commit(i: nat, f: map<Channel, seq<Value>>, b: map<Channel, seq<Value>>): (r: (map<Channel, seq<Value>>, bool))
    requires i <= ChannelCount
    requires forall c :: c in b
    decreases ChannelCount - i
    ensures r.0.Keys == f.Keys
  {
    if i == ChannelCount then (f, true)
    else
      var c := ChannelAt(i);
      if b[c] == [] then Commit(i + 1, f, b)
      else if c !in f then (f, false)
      else Commit(i + 1, f[c := f[c] + b[c]], b)
  }

  /** The commit of channels `i..` succeeds iff each of them with data has a
      dataset. */
  lemma {:induction false} CommitSucceeds(i: nat, f: map<Channel, seq<Value>>, b: map<Channel, seq<Value>>)
    requires i <= ChannelCount
    requires forall c :: c in b
    ensures Commit(i, f, b).1 <==> forall j :: i <= j < ChannelCount && b[ChannelAt(j)] != [] ==> ChannelAt(j) in f
    decreases ChannelCount - i
  {
    if i < ChannelCount {
      var c := ChannelAt(i);
      if b[c] == [] {
        CommitSucceeds(i + 1, f, b);
      } else if c in f {
        CommitSucceeds(i + 1, f[c := f[c] + b[c]], b);
      }
    }
  }

  /** A commit only ever extends a dataset of a channel `i..` by its buffer. */
  lemma {:induction false} CommitExtends(i: nat, f: map<Channel, seq<Value>>, b: map<Channel, seq<Value>>)
    requires i <= ChannelCount
    requires forall c :: c in b
    ensures var r := Commit(i, f, b).0;
      forall c :: c in f ==> r[c] == f[c] || (Index(c) >= i && r[c] == f[c] + b[c])
    decreases ChannelCount - i
  {
    if i < ChannelCount {
      var c := ChannelAt(i);
      if b[c] == [] {
        CommitExtends(i + 1, f, b);
      } else if c in f {
        CommitExtends(i + 1, f[c := f[c] + b[c]], b);
      }
    }
  }

  /** A successful commit extends every dataset of a channel `i..` by its
      buffer. */
  lemma {:induction false} CommitWritesAll(i: nat, f: map<Channel, seq<Value>>, b: map<Channel, seq<Value>>)
    requires i <= ChannelCount
    requires forall c :: c in b
    requires Commit(i, f, b).1
    ensures var r := Commit(i, f, b).0;
      forall c :: c in f && Index(c) >= i ==> r[c] == f[c] + b[c]
    decreases ChannelCount - i
  {
    if i < ChannelCount {
      var c := ChannelAt(i);
      var r := Commit(i, f, b).0;
      if b[c] == [] {
        CommitWritesAll(i + 1, f, b);
        CommitExtends(i + 1, f, b);
        forall d | d in f && Index(d) >= i ensures r[d] == f[d] + b[d] {
          if Index(d) == i {
            IndexInjective(d, c);
          }
        }
      } else {
        var f' := f[c := f[c] + b[c]];
        CommitWritesAll(i + 1, f', b);
        CommitExtends(i + 1, f', b);
        forall d | d in f && Index(d) >= i ensures r[d] == f[d] + b[d] {
          if Index(d) == i {
            IndexInjective(d, c);
          }
        }
      }
    }
  }

  /** `flush_buffer`. With no open file nothing happens and the result is
      false; with nothing pending nothing happens and the result is true;
      otherwise every dataset is extended by its buffer, all buffers are
      cleared and `last_save_time` becomes `now`. */
  function Flush(s: Store, now: real): (r: (Store, bool))
    requires Wf(s)
    ensures Wf(r.0)
    ensures s.file.None? ==> r == (s, false)
    ensures s.file.Some? && Pending(s) == 0 ==> r == (s, true)
    ensures r.0.recording == s.recording && r.0.settings == s.settings && r.0.sessionId == s.sessionId
    ensures r.0.startTime == s.startTime && r.0.stopAutoSave == s.stopAutoSave
    ensures r.0.file.Some? == s.file.Some?
    ensures r.0.lastSave == (if r.1 && Pending(s) > 0 then now else s.lastSave)
    ensures r.1 <==> s.file.Some? && forall c :: s.buffers[c] != [] ==> c in s.file.value
    ensures r.1 && Pending(s) > 0 ==>
      && r.0.file.value.Keys == s.file.value.Keys
      && (forall c :: c in s.file.value ==> r.0.file.value[c] == s.file.value[c] + s.buffers[c])
      && (forall c :: r.0.buffers[c] == [])
    ensures !r.1 && s.file.Some? ==>
      && r.0.buffers == s.buffers && r.0.pendingTimes == s.pendingTimes && r.0.lastSave == s.lastSave
      && r.0.file.value.Keys == s.file.value.Keys
      && (forall c :: c in s.file.value ==>
            r.0.file.value[c] == s.file.value[c] || r.0.file.value[c] == s.file.value[c] + s.buffers[c])
  {
    if s.file.None? then (s, false)
    else if Pending(s) == 0 then
      NothingPending(s);
      (s, true)
    else
      WriteBuffers(s, now)
  }

  /** The writing part of `flush_buffer`, once a file is open and something
      is pending. */
  function WriteBuffers(s: Store, now: real): (r: (Store, bool))
    requires Wf(s) && s.file.Some? && Pending(s) > 0
    ensures Wf(r.0)
    ensures r.0.file.Some? && r.0.file.value.Keys == s.file.value.Keys
    ensures r.1 <==> forall c :: s.buffers[c] != [] ==> c in s.file.value
    ensures r.1 ==> r.0 == s.(file := r.0.file, buffers := EmptyBuffers(), pendingTimes := EmptyTimes(), lastSave := now)
    ensures r.1 ==> forall c :: c in s.file.value ==> r.0.file.value[c] == s.file.value[c] + s.buffers[c]
    ensures !r.1 ==> r.0 == s.(file := r.0.file)
    ensures !r.1 ==> forall c :: c in s.file.value ==>
      r.0.file.value[c] == s.file.value[c] || r.0.file.value[c] == s.file.value[c] + s.buffers[c]
  {
    var (f, ok) := Commit(0, s.file.value, s.buffers);
    CommitOk(s.file.value, s.buffers, ok);
    CommitExtends(0, s.file.value, s.buffers);
    if !ok then (s.(file := Some(f)), false)
    else (WriteAll(s, now), true)
  }

  /** A flush in which every channel with data has its dataset: every
      buffer is written and cleared, and the save time advances. */
  function WriteAll(s: Store, now: real): (r: Store)
    requires Wf(s) && s.file.Some?
    requires forall c :: s.buffers[c] != [] ==> c in s.file.value
    ensures Wf(r)
    ensures r.file.Some? && r.file.value.Keys == s.file.value.Keys
    ensures r == s.(file := r.file, buffers := EmptyBuffers(), pendingTimes := EmptyTimes(), lastSave := now)
    ensures forall c :: c in s.file.value ==> r.file.value[c] == s.file.value[c] + s.buffers[c]
  {
    var (f, ok) := Commit(0, s.file.value, s.buffers);
    CommitOk(s.file.value, s.buffers, ok);
    CommitWritesAll(0, s.file.value, s.buffers);
    var r := s.(file := Some(f), buffers := EmptyBuffers(), pendingTimes := EmptyTimes(), lastSave := now);
    ClearedWf(r);
    r
  }

  /** With nothing pending every buffer is empty. */
  lemma NothingPending(s: Store)
    requires Wf(s)
    ensures Pending(s) == 0 ==> forall c :: s.buffers[c] == []
  {
    if Pending(s) == 0 {
      CountZero(ChannelCount, s.buffers);
      forall c ensures s.buffers[c] == [] {
        ChannelAtIndex(c);
        assert Len(s.buffers, ChannelAt(Index(c))) == 0;
      }
    }
  }

  /** A whole-registry commit succeeds exactly when every channel with data
      has a dataset. */
  lemma CommitOk(f: map<Channel, seq<Value>>, b: map<Channel, seq<Value>>, ok: bool)
    requires forall c :: c in b
    requires ok == Commit(0, f, b).1
    ensures ok <==> forall c :: b[c] != [] ==> c in f
  {
    CommitSucceeds(0, f, b);
    if ok {
      forall c | b[c] != [] ensures c in f {
        ChannelAtIndex(c);
        assert b[ChannelAt(Index(c))] != [];
      }
    }
    if forall c :: b[c] != [] ==> c in f {
      forall j | 0 <= j < ChannelCount && b[ChannelAt(j)] != [] ensures ChannelAt(j) in f {
      }
    }
  }

  // ---------------------------------------------------------------------------
  // Auto-save, stop, finalize, statistics

  /** The auto-save worker's test, made once per second. */
  predicate AutoSaveDue(s: Store, now: real) {
    now - s.lastSave >= s.settings.autoSaveInterval as real
  }

  /** One tick of the auto-save worker, which runs while recording and not
      told to stop: flush when a save is due, otherwise do nothing. */
  function AutoSaveTick(s: Store, now: real): (r: Store)
    requires Wf(s)
    ensures Wf(r)
    ensures !(s.recording && !s.stopAutoSave && AutoSaveDue(s, now)) ==> r == s
    ensures s.recording && !s.stopAutoSave && AutoSaveDue(s, now) ==> r == Flush(s, now).0
  {
    if s.recording && !s.stopAutoSave && AutoSaveDue(s, now) then Flush(s, now).0 else s
  }

  /** `stop_recording`: stop accepting samples, stop the auto-save worker,
      and flush what is pending. */
  function StopRecording(s: Store, now: real): (r: (Store, bool))
    requires Wf(s)
    ensures Wf(r.0)
    ensures !r.0.recording && r.0.stopAutoSave
    ensures r.0.sessionId == s.sessionId && r.0.startTime == s.startTime && r.0.settings == s.settings
    ensures r.1 <==> s.file.Some? && forall c :: s.buffers[c] != [] ==> c in s.file.value
    ensures r.0.file.Some? == s.file.Some? && (s.file.Some? ==> r.0.file.value.Keys == s.file.value.Keys)
    ensures r.1 ==> forall c :: r.0.buffers[c] == []
    ensures r.1 ==> forall c :: c in s.file.value ==> r.0.file.value[c] == s.file.value[c] + s.buffers[c]
    ensures !r.1 ==> r.0.buffers == s.buffers
  {
    var s0 := s.(recording := false, stopAutoSave := true);
    // Both paths flush; with a file and nothing pending, every buffer is
    // empty, which the flush's success clause needs.
    if s0.file.Some? && Pending(s0) == 0 then NothingPending(s0); Flush(s0, now)
    else Flush(s0, now)
  }

  /** The session summary `finalize_session` returns and writes. */
  datatype Summary = Summary(
    sessionId: Option<string>,
    startTime: Option<real>,
    endTime: real,
    durationSeconds: real,
    totalSamples: nat,
    datasets: map<Channel, nat>,
    settings: Settings)

  /** Python's `now - (start or now)`: an absent or zero start counts as now. */
  function Elapsed(start: Option<real>, now: real): real {
    if start.Some? && start.value != 0.0 then now - start.value else 0.0
  }

  /** The store `finalize_session` reports on: stopped first if it was still
      recording. */
  function Stopped(s: Store, now: real): (r: Store)
    requires Wf(s)
    ensures Wf(r) && !r.recording
    ensures r.sessionId == s.sessionId && r.startTime == s.startTime && r.settings == s.settings
  {
    if s.recording then StopRecording(s, now).0 else s
  }

  /** `finalize_session`: stop first if still recording, then report every
      dataset's length and the total over non-`timestamps` datasets, and close
      the file. */
  function FinalizeSession(s: Store, now: real): (r: (Store, Summary))
    requires Wf(s)
    ensures Wf(r.0)
    ensures !r.0.recording && r.0.file.None?
    ensures var s1 := Stopped(s, now);
      && r.1.totalSamples == Saved(s1)
      && (s1.file.Some? ==> forall c :: c in r.1.datasets <==> c in s1.file.value)
      && (s1.file.Some? ==> forall c :: c in r.1.datasets ==> r.1.datasets[c] == |s1.file.value[c]|)
      && (s1.file.None? ==> r.1.datasets == map[])
    ensures r.1.sessionId == s.sessionId && r.1.endTime == now
    ensures r.1.durationSeconds == Elapsed(s.startTime, now)
  {
    var s1 := Stopped(s, now);
    var stats := if s1.file.Some? then map c | c in s1.file.value :: |s1.file.value[c]| else map[];
    var summary := Summary(s1.sessionId, s1.startTime, now, Elapsed(s1.startTime, now),
                           Saved(s1), stats, s1.settings);
    (s1.(file := None), summary)
  }

  /** What `get_session_stats` reports. */
  datatype Stats =
    | NotRecordingStats
    | RecordingStats(sessionId: Option<string>, durationSeconds: real, saved: nat, buffered: nat,
                     total: nat, lastSave: real, sinceSave: real)

  function SessionStats(s: Store, now: real): (r: Stats)
    requires Wf(s)
    ensures r.NotRecordingStats? <==> !s.recording || s.file.None?
    ensures r.RecordingStats? ==> r.saved == Saved(s) && r.buffered == Buffered(s)
    ensures r.RecordingStats? ==> r.total == r.saved + r.buffered
    ensures r.RecordingStats? ==> r.sinceSave == now - s.lastSave
  {
    if !s.recording || s.file.None? then NotRecordingStats
    else RecordingStats(s.sessionId, Elapsed(s.startTime, now), Saved(s), Buffered(s),
                        Saved(s) + Buffered(s), s.lastSave, now - s.lastSave)
  }
}

=== FILE: storage_props.dfy ===
/** Properties of the buffered store that relate several operations:
    conservation of samples across appends and flushes, idempotence of flush,
    the auto-save retry behaviour, and the append-then-finalize round trip. */
module StorageProps {
  import opened Common
  import opened Registry
  import opened Storage

  /** Samples of the session, saved or buffered, `timestamps` excluded:
      the `total_samples` of `get_session_stats`. */
  function Total(s: Store): nat {
    Saved(s) + Buffered(s)
  }

  /** A store whose file holds a dataset for every registered channel. */
  predicate AllDatasets(s: Store) {
    s.file.Some? && forall c :: c in s.file.value
  }

  /** The file of `r` extends the file of `s` channel by channel: datasets
      are only ever appended to. */
  predicate Extends(s: Store, r: Store) {
    s.file.Some? ==> r.file.Some? && forall c :: c in s.file.value ==> c in r.file.value && s.file.value[c] <= r.file.value[c]
  }

  lemma {:induction false} CountConcat<T>(n: nat, f: map<Channel, seq<T>>, b: map<Channel, seq<T>>, g: map<Channel, seq<T>>)
    requires n <= ChannelCount
    requires forall c :: c in f && c in b && c in g && g[c] == f[c] + b[c]
    ensures Count(n, g) == Count(n, f) + Count(n, b)
  {
    if n > 0 {
      CountConcat(n - 1, f, b, g);
    }
  }

  /** A flush of a store that has every dataset always succeeds and moves
      samples from the buffers to the file without losing or duplicating
      any: every channel's total, and the session total, are unchanged. */
  lemma FlushConserves(s: Store, now: real)
    requires Wf(s) && AllDatasets(s)
    ensures Flush(s, now).1
    ensures forall c :: ChannelTotal(Flush(s, now).0, c) == ChannelTotal(s, c)
    ensures Total(Flush(s, now).0) == Total(s)
    ensures Extends(s, Flush(s, now).0)
  {
    var r := Flush(s, now).0;
    if Pending(s) > 0 {
      CountConcat(DataChannelCount, s.file.value, s.buffers, r.file.value);
      CountAllEmpty(DataChannelCount, r.buffers);
    }
  }

  /** The size check after every append: when the head-to-tail span of the
      buffered timestamps reaches the buffer length, everything buffered is
      written and nothing stays pending; otherwise the store is untouched.
      Either way no sample is lost or duplicated. */
  lemma CheckBufferSizeConserves(s: Store, now: real)
    requires Wf(s) && AllDatasets(s)
    ensures var r := CheckBufferSize(s, now);
      && (forall c :: ChannelTotal(r, c) == ChannelTotal(s, c))
      && Total(r) == Total(s)
      && Extends(s, r)
      && (FlushDue(s) ==> Pending(r) == 0 && Saved(r) == Total(s))
      && (!FlushDue(s) ==> r == s)
  {
    FlushConserves(s, now);
    if Pending(s) > 0 {
      CountAllEmpty(ChannelCount, Flush(s, now).0.buffers);
      CountAllEmpty(DataChannelCount, Flush(s, now).0.buffers);
    }
  }

  /** A successful flush leaves nothing pending, so flushing again at any
      later time changes nothing and still succeeds. */
  lemma FlushTwice(s: Store, now: real, later: real)
    requires Wf(s) && Flush(s, now).1
    ensures Flush(Flush(s, now).0, later) == (Flush(s, now).0, true)
  {
    var r := Flush(s, now).0;
    if Pending(s) > 0 {
      ClearedWf(r);
    }
  }

  /** `last_save_time` moves only when a flush actually wrote samples. */
  lemma FlushSaveTime(s: Store, now: real)
    requires Wf(s)
    ensures Flush(s, now).0.lastSave != s.lastSave ==> Flush(s, now).1 && Pending(s) > 0 && Flush(s, now).0.lastSave == now
  {
  }

  /** A successful append to channel `c` adds exactly one sample to `c` and,
      unless `c` is `timestamps`, one to `timestamps`; every other channel
      keeps its total, and the session total grows by one for a data channel.
      This holds whether or not the append triggered a flush. */
  lemma AppendCounts(s: Store, name: string, v: Value, ts: Option<real>, now: real)
    requires Wf(s) && AppendData(s, name, v, ts, now).1
    ensures var r := AppendData(s, name, v, ts, now).0; var c := Parse(name).value;
      && r.recording
      && ChannelTotal(r, c) == ChannelTotal(s, c) + 1
      && (c != Timestamps ==> ChannelTotal(r, Timestamps) == ChannelTotal(s, Timestamps) + 1)
      && (forall d :: d != c && d != Timestamps ==> ChannelTotal(r, d) == ChannelTotal(s, d))
      && Total(r) == Total(s) + (if c == Timestamps then 0 else 1)
      && Extends(s, r)
  {
    var c := Parse(name).value;
    var p := Push(s, c, v, ts.GetOr(now));
    PushCounts(s, c, v, ts.GetOr(now));
    if FlushDue(p) {
      FlushConserves(p, now);
    }
  }

  lemma PushCounts(s: Store, c: Channel, v: Value, t: real)
    requires Wf(s)
    ensures var p := Push(s, c, v, t);
      && p.recording == s.recording && p.file == s.file
      && ChannelTotal(p, c) == ChannelTotal(s, c) + 1
      && (c != Timestamps ==> ChannelTotal(p, Timestamps) == ChannelTotal(s, Timestamps) + 1)
      && (forall d :: d != c && d != Timestamps ==> ChannelTotal(p, d) == ChannelTotal(s, d))
      && Total(p) == Total(s) + (if c == Timestamps then 0 else 1)
      && Extends(s, p)
  {
    if c == Timestamps {
      PushStampCounts(s, v);
    } else {
      PushDataCounts(s, c, v, t);
    }
  }

  lemma PushStampCounts(s: Store, v: Value)
    requires Wf(s)
    ensures var p := PushStamp(s, v);
      && p.recording == s.recording && p.file == s.file
      && ChannelTotal(p, Timestamps) == ChannelTotal(s, Timestamps) + 1
      && (forall d :: d != Timestamps ==> ChannelTotal(p, d) == ChannelTotal(s, d))
      && Total(p) == Total(s)
  {
    var p := PushStamp(s, v);
    assert Saved(p) == Saved(s);
  }

  lemma PushDataCounts(s: Store, c: Channel, v: Value, t: real)
    requires Wf(s) && c != Timestamps
    ensures var p := PushData(s, c, v, t);
      && p.recording == s.recording && p.file == s.file
      && ChannelTotal(p, c) == ChannelTotal(s, c) + 1
      && ChannelTotal(p, Timestamps) == ChannelTotal(s, Timestamps) + 1
      && (forall d :: d != c && d != Timestamps ==> ChannelTotal(p, d) == ChannelTotal(s, d))
      && Total(p) == Total(s) + 1
  {
    var p := PushData(s, c, v, t);
    assert Saved(p) == Saved(s);
  }

  /** Scalar channels skip the shape check: any convertible value, even a
      vector, is accepted while recording. */
  lemma ScalarChannelAcceptsAnyShape(s: Store, c: Channel, v: Value, ts: Option<real>, now: real)
    requires Wf(s) && s.recording && Width(c) == 0 && !v.Unconvertible?
    ensures AppendData(s, Name(c), v, ts, now).1
  {
    ParseName(c);
  }

  /** A vector channel refuses a value of any other width and stays unchanged. */
  lemma VectorChannelRejectsWrongWidth(s: Store, c: Channel, xs: seq<real>, ts: Option<real>, now: real)
    requires Wf(s) && Width(c) > 0 && |xs| != Width(c)
    ensures AppendData(s, Name(c), Vector(xs), ts, now) == (s, false)
  {
    ParseName(c);
  }

  /** The flush rule looks at the first and last buffered timestamps, not at
      the earliest and latest: out-of-order timestamps spanning ten minutes
      do not trigger a flush under a five-minute budget. */
  lemma FlushUsesHeadAndTail(s: Store)
    requires Wf(s) && s.settings.bufferMinutes == 5
    requires s.buffers[Timestamps] == [Scalar(100.0), Scalar(700.0), Scalar(100.0)]
    ensures !FlushDue(s)
    ensures (700.0 - 100.0) / 60.0 >= s.settings.bufferMinutes as real
  {
  }

  /** The auto-save decision. A tick whose save is due but finds nothing to
      write changes nothing and leaves `last_save_time` where it was, so the
      save stays due at every later tick until data is written. */
  lemma AutoSaveRetriesUntilWritten(s: Store, now: real, later: real)
    requires Wf(s) && s.recording && !s.stopAutoSave && AutoSaveDue(s, now)
    requires Pending(s) == 0 && later >= now
    ensures AutoSaveTick(s, now) == s
    ensures AutoSaveDue(AutoSaveTick(s, now), later)
  {
  }

  /** A tick that writes data restarts the auto-save interval. */
  lemma AutoSaveRestartsAfterWrite(s: Store, now: real, later: real)
    requires Wf(s) && s.recording && !s.stopAutoSave && AutoSaveDue(s, now) && Pending(s) > 0
    requires s.settings.autoSaveInterval > 0 && now <= later < now + s.settings.autoSaveInterval as real
    ensures Total(AutoSaveTick(s, now)) == Total(s)
    ensures !AutoSaveDue(AutoSaveTick(s, now), later)
  {
    FlushConserves(s, now);
  }

  /** `get_session_stats` reports the same total before and after a flush. */
  lemma StatsTotalSurvivesFlush(s: Store, now: real, at: real)
    requires Wf(s) && s.recording
    ensures SessionStats(Flush(s, now).0, at).RecordingStats?
    ensures SessionStats(Flush(s, now).0, at).total == SessionStats(s, at).total
  {
    FlushConserves(s, now);
  }

  /** Finalizing a recording session loses nothing: stopping flushes the
      buffers, every dataset reports its channel's total, and the summary's
      `total_samples` is the session total. */
  lemma FinalizeAccountsForEverything(s: Store, now: real)
    requires Wf(s) && s.recording
    ensures var sum := FinalizeSession(s, now).1;
      && sum.totalSamples == Total(s)
      && (forall c :: c in sum.datasets && sum.datasets[c] == ChannelTotal(s, c))
  {
    StopKeepsTotal(s, now);
    StopKeepsChannels(s, now);
  }

  /** Stopping a recording store writes every buffer, so the saved count
      afterwards is the session total before. */
  lemma StopKeepsTotal(s: Store, now: real)
    requires Wf(s) && s.recording
    ensures Saved(Stopped(s, now)) == Total(s)
  {
    var s1 := StopRecording(s, now).0;
    CountConcat(DataChannelCount, s.file.value, s.buffers, s1.file.value);
  }

  /** Stopping a recording store leaves every dataset holding its channel's
      total. */
  lemma StopKeepsChannels(s: Store, now: real)
    requires Wf(s) && s.recording
    ensures var s1 := Stopped(s, now);
      s1.file.Some? && forall c :: c in s1.file.value && |s1.file.value[c]| == ChannelTotal(s, c)
  {
  }

  /** One sample for `append_data`: the value, the optional timestamp, and
      the clock reading at the call. */
  datatype Sample = Sample(value: Value, timestamp: Option<real>, now: real)

  /** Appends a run of samples to one channel name, counting the accepted ones. */
  function AppendRun(s: Store, name: string, run: seq<Sample>): (r: (Store, nat))
    requires Wf(s)
    ensures Wf(r.0)
    ensures r.1 <= |run|
    decreases |run|
  {
    if run == [] then (s, 0)
    else
      var (s1, ok) := AppendData(s, name, run[0].value, run[0].timestamp, run[0].now);
      var (s2, k) := AppendRun(s1, name, run[1..]);
      (s2, k + if ok then 1 else 0)
  }

  /** Every sample of a run fits the channel. */
  predicate RunFits(c: Channel, run: seq<Sample>) {
    forall i :: 0 <= i < |run| ==> !run[i].value.Unconvertible? && ShapeOk(c, run[i].value)
  }

  /** While recording, a run of fitting samples to a registered data channel
      is accepted in full, and the channel's total grows by its length. */
  lemma {:induction false} AppendRunCounts(s: Store, c: Channel, run: seq<Sample>)
    requires Wf(s) && s.recording && c != Timestamps && RunFits(c, run)
    ensures AppendRun(s, Name(c), run).1 == |run|
    ensures AppendRun(s, Name(c), run).0.recording
    ensures ChannelTotal(AppendRun(s, Name(c), run).0, c) == ChannelTotal(s, c) + |run|
    ensures Total(AppendRun(s, Name(c), run).0) == Total(s) + |run|
    decreases |run|
  {
    ParseName(c);
    if run != [] {
      var (s1, ok) := AppendData(s, Name(c), run[0].value, run[0].timestamp, run[0].now);
      assert ok;
      AppendCounts(s, Name(c), run[0].value, run[0].timestamp, run[0].now);
      assert RunFits(c, run[1..]) by {
        forall i | 0 <= i < |run[1..]| ensures !run[1..][i].value.Unconvertible? && ShapeOk(c, run[1..][i].value) {
          assert run[1..][i] == run[i + 1];
        }
      }
      AppendRunCounts(s1, c, run[1..]);
    }
  }

  /** The append/flush/finalize round trip: in a freshly initialised session,
      N fitting samples appended to a data channel are reported as N samples
      of that dataset by `finalize_session`, whatever flushes happened on
      the way. */
  lemma RoundTrip(settings: Settings, id: string, t0: real, c: Channel, run: seq<Sample>, tEnd: real)
    requires c != Timestamps && RunFits(c, run)
    ensures InitializeSession(Initial(settings), Some(id), id, t0, true).1
    ensures var s1 := AppendRun(InitializeSession(Initial(settings), Some(id), id, t0, true).0, Name(c), run).0;
      && c in FinalizeSession(s1, tEnd).1.datasets
      && FinalizeSession(s1, tEnd).1.datasets[c] == |run|
      && FinalizeSession(s1, tEnd).1.sessionId == Some(id)
  {
    var s0 := InitializeSession(Initial(settings), Some(id), id, t0, true).0;
    FreshSession(settings, id, t0);
    AppendRunCounts(s0, c, run);
    AppendRunKeepsSession(s0, Name(c), run);
    var s1 := AppendRun(s0, Name(c), run).0;
    FinalizeAccountsForEverything(s1, tEnd);
    var sum := FinalizeSession(s1, tEnd).1;
    assert sum.datasets[c] == ChannelTotal(s1, c) == |run|;
    assert sum.sessionId == s1.sessionId == Some(id);
  }

  /** A freshly initialised session records, with every channel empty. */
  lemma FreshSession(settings: Settings, id: string, t0: real)
    ensures var s0 := InitializeSession(Initial(settings), Some(id), id, t0, true).0;
      && Wf(s0) && s0.recording && s0.sessionId == Some(id)
      && forall c :: ChannelTotal(s0, c) == 0
  {
    var s0 := InitializeSession(Initial(settings), Some(id), id, t0, true).0;
    NothingPending(s0);
  }

  lemma {:induction false} AppendRunKeepsSession(s: Store, name: string, run: seq<Sample>)
    requires Wf(s)
    ensures AppendRun(s, name, run).0.sessionId == s.sessionId
    decreases |run|
  {
    if run != [] {
      var (s1, ok) := AppendData(s, name, run[0].value, run[0].timestamp, run[0].now);
      AppendRunKeepsSession(s1, name, run[1..]);
    }
  }
}
